=== FILE: README.md ===
# Interaction-function shape bookkeeping of pykeen, in Dafny

This project models the interaction-function layer of pykeen's
`src/pykeen/nn/modules.py`. It covers what this layer decides before any
floating-point work: which tensor shapes flow where, which hyperparameters
size which layer, and which inputs end in which Python exception. Every
tensor is modelled by its shape (`seq<nat>`). A call's keyword arguments are
a finite map from name to value. Each outcome is a `Result`, and an error is
tagged with the Python exception class the code raises.

The modules follow the structure of the source file:

- `Outcomes` (`outcomes.dfy`): `Option`, and `Result` with its error kinds
  (`ValueError`, `TypeError`, `KeyError`, `AssertionError`,
  `ZeroDivisionError`, `IndexError`, `NameError`, `RuntimeError`).
- `Factorization` (`factorization.dfy`): `_calculate_missing_shape_information`,
  the resolver that completes ConvE's (channels, width, height) geometry.
- `Axes` (`axes.dfy`): `_add_dim`, `_remove_dim`, and the torch
  `unsqueeze`/`squeeze` rules underneath them. It proves that squeezing
  highest-first removes exactly the named size-one axes, against a
  position-based reference definition.
- `Kwargs` (`kwargs.dfy`): `_check_for_empty_kwargs` and how each variant
  consumes its keyword arguments.
- `Variants` (`variants.dfy`): the layer sizes the ConvE, ConvKB, ER-MLP,
  ER-MLP-E and Tucker constructors derive, and the relation split of
  Structured Embedding, at shape level and at vector level.
- `Interactions` (`interactions.dfy`): the interaction variants and the
  shape behaviour of their `forward`.
- `Scoring` (`scoring.dfy`): `score_hrt`, `score_h`, `score_r` and
  `score_t`, as written and as documented.

A kernel of `functional.py` is taken to produce the result shape its
`forward` documents, `(batch, num_heads, num_relations, num_tails)`. The
batch axis broadcasts: sizes other than 1 must agree. Unstructured Model's
kernel is called without the relation (line 770), so the relation takes no
part in its batch and its relation axis is 1.

## Model

| member | source | states |
|---|---|---|
| Factorization.Resolve | src/pykeen/nn/modules.py:293-339 | A resolved geometry multiplies out to the embedding dimension and keeps every factor the caller supplied. A `ValueError` is either the product mismatch naming the original input and the target, or, with nothing supplied, `max()` of an empty range. |
| Factorization.Isqrt | src/pykeen/nn/modules.py:318 | The floor of the square root is the `k` with `k*k <= n < (k+1)*(k+1)`. |
| Factorization.LargestDivisorUpTo | src/pykeen/nn/modules.py:319 | The result is a divisor in `1..bound` with no larger divisor up to the bound. It is `None` (where `max` raises) exactly when no divisor exists in that range. |
| Factorization.DefaultAllUnset | src/pykeen/nn/modules.py:315-320 | With nothing supplied, the first step succeeds iff the dimension is positive, and then sets all three factors: 1 channel and a height <= width whose product is the dimension. Its only error is the empty-`max()` `ValueError`. Anything supplied passes through unchanged. |
| Factorization.DefaultChannels | src/pykeen/nn/modules.py:322-324 | Width and height are never touched, and supplied channels are kept. Unset channels become 1 iff a spatial factor is unset. Afterwards at most one factor is unset iff width or height was given, which is what the assertion on line 327 checks. |
| Factorization.FillMissing | src/pykeen/nn/modules.py:328-333 | Filling the single missing factor by floor division keeps every factor already set. |
| Factorization.AllUnsetResolves | src/pykeen/nn/modules.py:315-320 | With nothing supplied and a positive dimension, the result is 1 channel. The height is the largest divisor not above the integer square root, the width is the cofactor, and height <= width. |
| Factorization.AllUnsetZeroFails | src/pykeen/nn/modules.py:316-319 | With dimension 0 and nothing supplied, the result is the `ValueError` of `max()` over an empty range. |
| Factorization.ChannelsAloneFailAssertion | src/pykeen/nn/modules.py:322-327 | Channels supplied alone leave two factors unset, so the assertion on line 327 fails for every dimension. |
| Factorization.FillMissingFindsCompletion | src/pykeen/nn/modules.py:328-333 | When at most one factor is missing and the supplied ones are positive, any completion whose product is the target is exactly the one filled in. |
| Factorization.ZeroDivisorRaises | src/pykeen/nn/modules.py:328-333 | The resolver raises `ZeroDivisionError` iff something was supplied, exactly one factor is still unset after the channel default, and the two factors that are set multiply to zero. |
| Factorization.ZeroWidthRaises | src/pykeen/nn/modules.py:328-333 | Dimension 0 with width 0 has the completion (1, 0, 5), yet the resolver raises `ZeroDivisionError` on line 331. |
| Factorization.ResolveFindsCompletion | src/pykeen/nn/modules.py:322-339 | Completeness: after the channel default, when at most one factor is missing, the resolver returns every valid completion. With the postcondition of `Resolve`, it succeeds iff a completion exists and every supplied factor is positive. |
| Factorization.OneSpatialFactorGiven | src/pykeen/nn/modules.py:322-339 | With only the height given, the channels become 1 and the width the quotient. The call succeeds iff the height divides the dimension, and otherwise raises the product-mismatch `ValueError`. |
| Factorization.DefaultConvEGeometry | src/pykeen/nn/modules.py:315-320 | For dimension 200 with nothing supplied the result is (1, 20, 10): 10 is the largest divisor of 200 up to 14. |
| Factorization.ChannelsAndWidthGiven | src/pykeen/nn/modules.py:326-339 | 200 with channels 2 and width 10 resolves to height 10. |
| Axes.Unsqueeze | src/pykeen/nn/modules.py:65 | `unsqueeze(dim)` succeeds iff `-(rank+1) <= dim <= rank`. It inserts one size-one axis at the normalised position and leaves every other axis in order. |
| Axes.UnsqueezeEach | src/pykeen/nn/modules.py:65 | The list comprehension succeeds iff every tensor accepts `dim`, and each output is its input with the axis inserted. |
| Axes.AddDim | src/pykeen/nn/modules.py:55-68 | `_add_dim` returns a single tensor for one argument and a list for several. With no argument it raises `IndexError`. It succeeds iff every tensor accepts `dim`. |
| Axes.NormalizeDims | src/pykeen/nn/modules.py:84 | A negative dim is counted from the end, and a non-negative one is kept. |
| Axes.SortDescending | src/pykeen/nn/modules.py:88 | `sorted(dims, reverse=True)` is a permutation of its input (same multiset). |
| Axes.SortDescendingOrders | src/pykeen/nn/modules.py:88 | The sort is descending, and strictly descending for distinct axes. |
| Axes.RemoveDim | src/pykeen/nn/modules.py:71-90 | On success, `_remove_dim` returns the original shape without exactly the named axes of size one, every index meaning an original position. |
| Axes.RemoveDimOutcomes | src/pykeen/nn/modules.py:84-87 | The three outcomes, each in both directions: a `ValueError` iff a normalised axis repeats, an assertion failure iff the axes are distinct but one is outside the tensor, and success otherwise. |
| Axes.Squeeze | src/pykeen/nn/modules.py:89 | `squeeze(dim)` on an axis of size 1 is the inverse of inserting that axis: the input is the result with a 1 inserted at `dim`. On an axis of any other size it is a no-op. |
| Axes.SqueezeAll | src/pykeen/nn/modules.py:88-89 | Each squeeze removes at most one axis, so the rank drops by at most the number of named axes. When no named axis has size 1, the shape is unchanged. |
| Axes.SqueezeAllIsKept | src/pykeen/nn/modules.py:88-89 | Squeezing distinct in-range axes highest-first equals the position-based reference removal, so no squeeze shifts a later index. |
| Axes.UnsqueezeThenRemove | src/pykeen/nn/modules.py:55-90 | Removing the axis `unsqueeze(dim)` just inserted gives back the original shape for every valid `dim`, negative ones included. |
| Axes.RemoveDistinctAxes | src/pykeen/nn/modules.py:84-90 | Distinct, non-negative in-range axes always succeed and give the reference removal. |
| Axes.RemoveScoreAxes | src/pykeen/nn/modules.py:84-90 | Removing distinct candidate axes from a 4-D score shape drops a named axis exactly when its size is 1, and never touches the batch axis. |
| Axes.RemoveAllCandidateAxes | src/pykeen/nn/modules.py:123 | Removing axes 1, 2, 3 from `(batch, 1, 1, 1)` gives `(batch)`. |
| Axes.RemoveRelationAndTailAxes | src/pykeen/nn/modules.py:158 | Removing axes 2, 3 from `(batch, n, 1, 1)` gives `(batch, n)` for every `n`, including `n == 1`. |
| Axes.RemoveHeadAndTailAxes | src/pykeen/nn/modules.py:192 | Removing axes 1, 3 from `(batch, 1, n, 1)` gives `(batch, n)`. |
| Axes.RemoveHeadAndRelationAxes | src/pykeen/nn/modules.py:226 | Removing axes 1, 2 from `(batch, 1, 1, n)` gives `(batch, n)`. |
| Kwargs.CheckEmpty | src/pykeen/nn/modules.py:49-52 | The check passes iff no keyword is left. Otherwise it raises a `ValueError` naming the leftover keywords. |
| Kwargs.Pop | src/pykeen/nn/modules.py:607 | `kwargs.pop(key)` succeeds iff the key is present. It returns the caller's value and the map without that key, and otherwise raises `KeyError(key)`. |
| Kwargs.Extras | src/pykeen/nn/modules.py:424-427 | The keyword handling of every variant (the same pattern at 252, 285, 607-608 and 783-785): on success every required keyword was passed and exactly the required ones are handed on. A variant that checks leftovers succeeds only with nothing else passed, a variant that never looks always succeeds, and every failure is a `TypeError`, `KeyError` or `ValueError`. |
| Kwargs.PopProjections | src/pykeen/nn/modules.py:783-785 | TransD's three `pop`s succeed only when `h_p`, `r_p` and `t_p` are all present, and then hand on exactly those three. Any failure is a `KeyError`. |
| Kwargs.TailBiasMatches | src/pykeen/nn/modules.py:424-427 | ConvE accepts exactly `{t_bias}` and hands on the caller's value. A missing `t_bias` raises a `TypeError`, and leftovers raise a `ValueError` naming them. |
| Kwargs.RelationMatrixMatches | src/pykeen/nn/modules.py:607-608 | TransR accepts exactly `{m_r}`. A missing `m_r` raises a `KeyError`, and leftovers raise a `ValueError` naming them. |
| Kwargs.ProjectionVectorsMatch | src/pykeen/nn/modules.py:783-786 | TransD succeeds iff `h_p`, `r_p` and `t_p` are all present, whatever else is passed. Otherwise it raises a `KeyError` for the first one missing, in that order. |
| Kwargs.ExtrasMatchAccepts | src/pykeen/nn/modules.py:245-253 | For every variant's protocol (the stateless check here and the forms cited above), the keyword handling succeeds iff the declarative acceptance rule holds. On success it hands on exactly the required keywords with the caller's values. |
| Kwargs.ExtrasErrors | src/pykeen/nn/modules.py:424-427 | Across protocols, each rejected call raises the documented exception: `TypeError`, `KeyError` for the first missing name, or `ValueError` naming the leftovers. |
| Kwargs.ExtrasOfNothing | src/pykeen/nn/modules.py:424-427 | A call without keyword arguments is accepted iff the variant requires none. ConvE, TransR and TransD reject it with the error for their first required keyword. |
| Kwargs.ProjectionVectorsIgnoreLeftovers | src/pykeen/nn/modules.py:776-786 | TransD accepts a call carrying its three projections plus an unrelated keyword. |
| Variants.ConvOutput | src/pykeen/nn/modules.py:390-397 | A stride-1, unpadded convolution succeeds iff the channels match and the kernel fits both sides. The output then has `out_channels` channels and each side shrinks by the kernel side minus one. |
| Variants.ConvEFlattenedWidth | src/pykeen/nn/modules.py:390-412 | The head and relation images, each reshaped to (channels, height, width) and stacked along the height, convolve iff the element count is the dimension, `conv1` takes the channels, and the kernel fits (2*height, width). The flattened output then has exactly `num_in_features` entries. |
| Variants.InFeatures | src/pykeen/nn/modules.py:408-412 | `num_in_features` is non-negative whenever neither kernel side exceeds its image side by more than one. It is negative iff there are output channels and exactly one side overshoots while the other leaves room. |
| Variants.ConvEDimension | src/pykeen/nn/modules.py:363-364 | A `None` embedding dimension becomes the product of the three factors, and is a `TypeError` iff one of them is `None`. A given dimension is kept. |
| Variants.BuildConvE | src/pykeen/nn/modules.py:386-413 | The layers are sized from the settled geometry: the convolution, the three batch norms (all present iff enabled), and `fc` from `num_in_features` to the embedding dimension. A negative `num_in_features` raises `RuntimeError` in `nn.Linear`. |
| Variants.NewConvE | src/pykeen/nn/modules.py:345-413 | The constructor fails exactly as the dimension derivation, the resolver or the layer sizing does. A built ConvE has channels*height*width equal to the embedding dimension and keeps every supplied factor. |
| Variants.ConvEFeaturesFit | src/pykeen/nn/modules.py:408-413 | For layers built from a geometry whose size is the embedding dimension, as `NewConvE` always builds them, `num_in_features` is exactly the flattened convolution output on the (channels, 2*height, width) stacked image. So `fc` fits iff the kernel fits, and `fc` maps back to the embedding dimension. |
| Variants.ConvEDefaults | src/pykeen/nn/modules.py:345-358 | The default ConvE is one channel with a 10 x 20 image and 32*18*18 = 10368 input features. |
| Variants.NewConvKB | src/pykeen/nn/modules.py:463-466 | The one-channel (1, 3) filters turn the (1, dim, 3) stacked image into (num_filters, dim, 1). |
| Variants.ConvKBFeaturesFit | src/pykeen/nn/modules.py:452-466 | The (1, 3) filters on the (1, dim, 3) stacked image produce `num_filters*dim` features, which is exactly the linear layer's input, and the output is one score. |
| Variants.NewERMLP | src/pykeen/nn/modules.py:527-529 | The hidden layer and the score layer chain from the 3*dim concatenated triple to a single score. |
| Variants.ERMLPWidths | src/pykeen/nn/modules.py:509-529 | The MLP accepts exactly width 3*dim (the concatenated triple) and yields width 1. |
| Variants.Propagate | src/pykeen/nn/modules.py:571-581 | Running an `nn.Sequential` fails only on a width mismatch of a Linear or BatchNorm layer. Dropout and ReLU stages pass any width. A network without Linear layers keeps the width. |
| Variants.PropagateAppend | src/pykeen/nn/modules.py:571-581 | Running `nn.Sequential` stages in one network equals running them one after the other. |
| Variants.NewERMLPE | src/pykeen/nn/modules.py:571-581 | The nine stages chain from width 2*dim back to dim features. |
| Variants.ERMLPEWidths | src/pykeen/nn/modules.py:563-581 | The network accepts exactly width 2*dim and yields width dim. |
| Variants.ERMLPEDefaults | src/pykeen/nn/modules.py:563-581 | With the defaults (hidden 300, dimension 200) the first linear layer is 400 -> 300. The network accepts width 400 and no other, and yields 200. |
| Variants.NewTucker | src/pykeen/nn/modules.py:710-729 | The relation dimension is the one given or, by default, the entity dimension. The core tensor contracts with an entity-sized head and then a relation-sized relation to an entity-sized vector. |
| Variants.TuckerContractions | src/pykeen/nn/modules.py:690-729 | The core tensor contracts with an entity-sized head and then a relation-sized relation, and with nothing else, leaving an entity-sized vector. The relation dimension defaults to the entity dimension, and both batch norms are present iff enabled. |
| Variants.SplitSizes | src/pykeen/nn/modules.py:681 | `split(size)` gives exactly two chunks iff `size < total <= 2*size`, and then the chunks are `size` and `total - size`. |
| Variants.SplitChunks | src/pykeen/nn/modules.py:681 | `split(size)` fails with `RuntimeError` iff the size is 0 on a non-empty axis; an empty axis split by 0 is one empty chunk. There are exactly two chunks iff `size < total <= 2*size`, and then they are `size` and `total - size`. |
| Variants.ViewShape | src/pykeen/nn/modules.py:682-683 | `view` with every size given succeeds iff the element counts agree, and otherwise raises `RuntimeError`. |
| Variants.ProductAppend | src/pykeen/nn/modules.py:682-683 | The element count of a shape whose axes are concatenated from two shapes is the product of their counts. |
| Variants.ViewOfChunk | src/pykeen/nn/modules.py:682-683 | A chunk of width `c` views as `(d, d)` iff `c == d*d` or its leading axes hold no elements. |
| Variants.SplitRelationShape | src/pykeen/nn/modules.py:680-683 | The split-unpack-view succeeds iff `d >= 1` (the head's last axis) and the relation's last axis is `2*d*d`, or the relation's leading axes hold no elements and the last axis is in `(d*d, 2*d*d]`. Both matrices then have the relation's leading axes followed by `(d, d)`. Width 0 is a `ValueError` from unpacking one chunk on an empty axis and a `RuntimeError` otherwise. With elements present, any other last axis fails with a `ValueError` or the view's `RuntimeError`. |
| Variants.EmptyRelationBatch | src/pykeen/nn/modules.py:680-683 | A relation batch of shape (0, 5) with head width 2 splits into chunks 4 and 1, and both view as (0, 2, 2). |
| Variants.ZeroWidthEmptyRelation | src/pykeen/nn/modules.py:680-681 | Head width 0 on an empty relation axis gives one chunk, so unpacking raises `ValueError` (expected 2, got 1). |
| Variants.SplitRelationVector | src/pykeen/nn/modules.py:681-683 | A relation vector of length 2*d*d splits into a head and a tail matrix, each with d rows of width d. |
| Variants.SplitRelationVectorEntry | src/pykeen/nn/modules.py:681-683 | Entry (i, j) of the head matrix is element `i*d + j` of the relation vector, and of the tail matrix element `d*d + i*d + j`. |
| Variants.SplitRelationVectorRoundTrip | src/pykeen/nn/modules.py:681-683 | Flattening the two matrices row by row gives back the relation vector. |
| Interactions.ProtocolOf | src/pykeen/nn/modules.py:776-786 | Exactly ConvE (424-426), TransR (607) and TransD (783-785) require keyword arguments. Exactly TransD, ConvKB (486-494) and Structured Embedding (680-684) never check for leftovers. |
| Interactions.Prepare | src/pykeen/nn/modules.py:680-683 | The reshaping a variant does before its kernel succeeds iff the layout fits. Only Structured Embedding reshapes, and its layout is the relation split stated under `Variants.SplitRelationShape`, zero-element relations included. |
| Interactions.KernelShape | src/pykeen/nn/modules.py:36-44 | The documented result `(batch, num_heads, num_relations, num_tails)` exists iff the batch sizes the kernel receives broadcast. Its batch is the common size other than 1. Unstructured Model's kernel never receives the relation (line 770): its relation batch takes no part and its relation axis is 1. |
| Interactions.Forward | src/pykeen/nn/modules.py:28-46 | `forward` succeeds iff the keywords are accepted, the layout fits and the batches its kernel receives broadcast, and its result is the kernel shape. A keyword rejection surfaces unchanged. The keywords never include `h`, `r` or `t`, which Python binds to the parameters. |
| Interactions.UnstructuredIgnoresRelation | src/pykeen/nn/modules.py:759-770 | Unstructured Model's outcome is the same for every relation shape, and its scores have relation axis 1, because its kernel is called with head and tail only. |
| Interactions.UnstructuredRelationProbe | src/pykeen/nn/modules.py:770 | A relation batch of 5 against head and tail batches of 3 is an error for TransE but not for Unstructured Model. Seven candidate relations give Unstructured Model one relation column. |
| Interactions.ForwardWithoutKeywords | src/pykeen/nn/modules.py:416-427 | Without keyword arguments, the variants that need none score whenever the shapes allow. ConvE raises the `t_bias` `TypeError`, and TransR and TransD raise their `KeyError`. |
| Interactions.StructuredEmbeddingForward | src/pykeen/nn/modules.py:673-684 | Structured Embedding ignores its keywords. When the relation's leading axes hold elements, it succeeds iff the last axis holds exactly two `d x d` matrices for head width `d >= 1`. When they hold none, it succeeds iff `d >= 1` and the last axis splits into two chunks, i.e. lies in `(d*d, 2*d*d]`. |
| Scoring.CallForward | src/pykeen/nn/modules.py:155 | The call `self(h=h, r=r, t=t, **kwargs)` raises Python's duplicate-keyword `TypeError` iff `kwargs` holds `h`, `r` or `t`. Otherwise it is `forward`. |
| Scoring.TriplePattern | src/pykeen/nn/modules.py:114 | The "be", "br", "be" assertion means rank-2 inputs with one batch size, and a common entity width for head and tail. |
| Scoring.CandidatePattern | src/pykeen/nn/modules.py:147 | The "ne", "br", "be" assertion means the candidates share the entity width, and relation and entity share the batch. |
| Scoring.RelationCandidatePattern | src/pykeen/nn/modules.py:182 | The "nr", "be", "be" assertion means head and tail have the same shape. |
| Scoring.LayoutAfterAddedAxis | src/pykeen/nn/modules.py:117 | Inserting the candidate axis of size 1 next to the relation's batch axis leaves the layout check's verdict unchanged. |
| Scoring.PrepareTriples | src/pykeen/nn/modules.py:117 | Each of head, relation and tail gains a size-one candidate axis after the batch axis. |
| Scoring.PrepareHeads | src/pykeen/nn/modules.py:151-152 | Relation and tail gain a candidate axis, and the candidate heads become a batch of one. |
| Scoring.PrepareRelations | src/pykeen/nn/modules.py:185-186 | Head and tail gain a candidate axis, and the candidate relations become a batch of one. |
| Scoring.PrepareTails | src/pykeen/nn/modules.py:219-220 | Head and relation gain a candidate axis, and the candidate tails become a batch of one. |
| Scoring.AppendAxis | src/pykeen/nn/modules.py:123 | The final `unsqueeze(dim=-1)` turns `(batch)` into `(batch, 1)`. |
| Scoring.ScoreTriples | src/pykeen/nn/modules.py:92-123 | As written, `score_hrt` succeeds iff the variant needs no keywords and the layout fits, and then returns `(batch, 1)`. Otherwise it raises the variant's keyword error for an empty call. |
| Scoring.ScoreTriplesWith | src/pykeen/nn/modules.py:98-123 | With the documented keyword arguments passed on, `score_hrt` succeeds iff they are accepted and the layout fits, and returns `(batch, 1)`. Keyword errors surface unchanged. |
| Scoring.ScoreHeadsAsWritten | src/pykeen/nn/modules.py:125-158 | As written, `score_h` always ends in `NameError` for `kwargs`. |
| Scoring.ScoreRelationsAsWritten | src/pykeen/nn/modules.py:160-192 | As written, `score_r` always ends in `NameError` for `kwargs`. |
| Scoring.ScoreTailsAsWritten | src/pykeen/nn/modules.py:194-226 | As written, `score_t` always ends in `NameError` for `kwargs`. |
| Scoring.ScoreHeads | src/pykeen/nn/modules.py:125-158 | With the keywords passed on, a keyword `h` collides with `h=h` and raises `TypeError`. Otherwise scoring all heads succeeds iff the keywords are accepted and the layout fits, and returns `(batch, num_entities)`. |
| Scoring.ScoreRelations | src/pykeen/nn/modules.py:160-192 | With the keywords passed on, a keyword `r` collides with `r=r` and raises `TypeError`. Otherwise scoring all relations succeeds iff the keywords are accepted and the layout fits. It returns `(batch, num_relations)`, or `(batch, 1)` for Unstructured Model, whose kernel never receives the relations. |
| Scoring.ScoreTails | src/pykeen/nn/modules.py:194-226 | With the keywords passed on, a keyword `t` collides with `t=t` and raises `TypeError`. Otherwise scoring all tails succeeds iff the keywords are accepted and the layout fits, and returns `(batch, num_entities)`. |
| Scoring.HeadScoringNeedsKeywords | src/pykeen/nn/modules.py:155 | For every keyword-free variant and valid input, the written `score_h` raises `NameError` where the corrected one returns `(batch, n)`. |
| Scoring.RelationScoringNeedsKeywords | src/pykeen/nn/modules.py:189 | For every keyword-free variant and valid input, the written `score_r` raises `NameError` where the corrected one returns `(batch, n)`, or `(batch, 1)` for Unstructured Model (line 770). |
| Scoring.TailScoringNeedsKeywords | src/pykeen/nn/modules.py:223 | The same discrepancy for `score_t`. |
| Scoring.TransEHeadScoringCounterexample | src/pykeen/nn/modules.py:155 | Concrete input: TransE with five candidate heads of width 4 and a batch of three. As written the result is `NameError`, and corrected it is `(3, 5)`. |
| Scoring.UnstructuredRelationScoring | src/pykeen/nn/modules.py:770 | Seven candidate relations for a batch of three score to `(3, 1)` under Unstructured Model and to `(3, 7)` under TransE. |
| Scoring.DuplicateRelationKeyword | src/pykeen/nn/modules.py:189 | With keywords passed on, a keyword named `r` always ends in the duplicate-keyword `TypeError`, whatever the variant. |
| Scoring.TripleScoringNeedsKeywords | src/pykeen/nn/modules.py:107-120 | The written `score_hrt` rejects every ConvE call with the `t_bias` `TypeError`. Handing on `t_bias` scores the same triples to `(batch, 1)`. |

## Behaviour worth knowing

- The resolver's docstring (lines 309-310) says it raises when no
  factorization can be found. With only the channels given (say 7 with
  channels 2), two factors stay unset after line 324, so the failure is the
  assertion on line 327, not the `ValueError` on line 337
  (`Factorization.ChannelsAloneFailAssertion`). A supplied factor of 0
  that enters the divisor on lines 329-333 raises `ZeroDivisionError`, as
  Python's `//` does, even when a completion exists: dimension 0 with width
  0 fails on line 331 although (1, 0, 5) completes it
  (`Factorization.ZeroDivisorRaises`, `Factorization.ZeroWidthRaises`).
- `_check_for_empty_kwargs` (lines 49-52) is called by most variants, but
  TransD (783-786), ConvKB (486-494) and Structured Embedding (680-684)
  never call it. The model accepts leftover keywords there
  (`Kwargs.ProjectionVectorsIgnoreLeftovers`, `Interactions.ProtocolOf`).
- A missing keyword raises different Python classes: `TypeError` for ConvE's
  `t_bias` (line 425) and `KeyError` from `dict.pop` for TransR's `m_r` and
  TransD's `h_p`, `r_p` and `t_p`. Leftovers raise `ValueError`. The model
  keeps each class.

## Left out

- The numeric kernels of `functional.py` are not part of this model. A
  kernel is taken to produce the shape the `forward` docstring documents
  (lines 43-44), broadcasting the batch axes of the tensors it receives.
  Unstructured Model's kernel receives no relation (line 770), so its
  relation axis is taken to be 1.
- `reset_parameters` (228-234 and the per-variant overrides) is left out:
  it only initialises weights.
- Dropout rates, BatchNorm statistics and the values computed by Conv2d and
  Linear are left out. Layers are modelled by their sizes only.
- ProjE (619-664) is left out. Its `.view(-1, 1)` flattens the score
  tensor into a shape the base class's squeezing does not expect. Its
  keyword check is the same `_check_for_empty_kwargs` modelled for the
  other variants.
- NTN (789-808) is left out. Its constructor only stores a non-linearity,
  and the body of its `forward` is not in the source file: the file ends at
  line 808, inside that method's signature.
- Logging (lines 16, 362, 374) is left out.
- `check_shapes` (imported from `..utils`) is not part of this model. Its
  named-axis meaning is stated as the predicate `Scoring.CheckShapes` and
  used as a precondition, as the `assert` on lines 114/147/182/216 makes it
  one for callers.
- A head, relation or tail given as a tuple of tensors is left out. The
  model takes one tensor per role.
- `src/pykeen/models/unimodal/kg2e.py` and
  `src/pykeen/models/multimodal/__init__.py` are not part of this model.
- Factorization.Isqrt: `math.floor(math.sqrt(n))` is taken as the exact
  integer square root. Floating-point rounding for very large dimensions is
  not modelled.
- Factorization.Resolve: factors, dimensions and other hyperparameters are
  `nat`, so negative inputs are out of scope. The source accepts them: 200
  with width -4 resolves to (1, -4, -50), and ConvE then builds. The one
  negative value the model does produce is ConvE's `num_in_features`, which
  `nn.Linear` rejects (`Variants.BuildConvE`, `Variants.InFeatures`).
- Variants.ViewShape: torch's stride-compatibility condition for `view` is
  not modelled. Splitting the last axis of a chunk cut from the last axis
  always satisfies it, so only the element count decides.
- Variants.ConvEFlattenedWidth: the body of `pkf.conve_interaction` is not
  part of this model. The model assumes it reshapes head and relation to
  (channels, height, width), stacks them along the height, convolves with
  `conv1` and flattens. The `2 * self.embedding_height` in the
  `num_in_features` formula (lines 408-412) is what justifies that
  assumption.
- Variants.NewConvKB: the body of `pkf.convkb_interaction` is not part of
  this model. The model assumes it stacks head, relation and tail into a
  one-channel (dim, 3) image, convolves it and flattens. The `(1, 3)` kernel
  and `Linear(embedding_dim * num_filters, 1)` (lines 463 and 466) justify
  that assumption.
- Variants.NewTucker: the body of `pkf.tucker_interaction` is not part of
  this model. The model assumes the core contracts first with the head
  (entity width), then with the relation (relation width), leaving an
  entity-width vector for the tail. The core's shape `(embedding_dim,
  relation_dim, embedding_dim)` (lines 715-716) and the two
  `BatchNorm1d(embedding_dim)` (726-727) justify that assumption.
- Variants.NewERMLPE: the body of `pkf.ermlpe_interaction` is not part of
  this model, nor which two of head, relation and tail it concatenates. The
  model states widths only: the network takes the `2 * embedding_dim` of
  `Linear(2 * embedding_dim, hidden_dim)` (line 573) and yields
  `embedding_dim` (line 578) for comparison with the third representation.
- Interactions.Forward: `p` and `power_norm` of the translational variants
  are stored but play no part in shapes.
- Scoring.ScoreTriples: the TransR and TransD rejections through `score_hrt`
  are stated through the general keyword-error postcondition together with
  `Kwargs.ExtrasOfNothing`, not as separate lemmas per variant.

## Findings

| source | as written | input that shows it | evidently intended | confidence | as-written member | corrected member |
|---|---|---|---|---|---|---|
| src/pykeen/nn/modules.py:155 | `score_h` passes `**kwargs`, a name the method never binds | TransE (p=2), all_entities (5, 4), r (3, 4), t (3, 4) gives `NameError` | Keyword arguments (documented at 140-141) are passed to `forward`, and the scores have shape (3, 5) | not executed; high | Scoring.ScoreHeadsAsWritten, Scoring.HeadScoringNeedsKeywords, Scoring.TransEHeadScoringCounterexample | Scoring.ScoreHeads |
| src/pykeen/nn/modules.py:189 | `score_r` passes the unbound `**kwargs` | Any keyword-free variant on inputs that pass the shape check gives `NameError` | Keyword arguments are passed on, with scores (batch, num_relations), or (batch, 1) for Unstructured Model | not executed; high | Scoring.ScoreRelationsAsWritten, Scoring.RelationScoringNeedsKeywords | Scoring.ScoreRelations |
| src/pykeen/nn/modules.py:223 | `score_t` passes the unbound `**kwargs` | Any keyword-free variant on inputs that pass the shape check gives `NameError` | Keyword arguments are passed on, with scores (batch, num_entities) | not executed; high | Scoring.ScoreTailsAsWritten, Scoring.TailScoringNeedsKeywords | Scoring.ScoreTails |
| src/pykeen/nn/modules.py:92-123 | `score_hrt` documents keyword arguments (107-108) but takes none and calls `forward` without any | ConvE with any valid triple batch gives `TypeError` for `t_bias` | `t_bias` and the other documented keywords reach `forward`, and the scores have shape (batch, 1) | not executed; medium | Scoring.ScoreTriples, Scoring.TripleScoringNeedsKeywords | Scoring.ScoreTriplesWith |

=== FILE: axes.dfy ===
/** Axis insertion and removal on tensor shapes, as the interaction base class
    uses them to move between exact triples and the 4-D broadcast form. A
    tensor is modelled by its shape. */
module Axes {
  import opened Outcomes

  /** The size of each axis, outermost first. */
  type Shape = seq<nat>

  /** `r` is `s` with one extra axis of size one at position `k`. */
  predicate InsertedAt(s: Shape, r: Shape, k: nat) {
    && k <= |s|
    && |r| == |s| + 1
    && r[k] == 1
    && (forall i :: 0 <= i < k ==> r[i] == s[i])
    && (forall i :: k <= i < |s| ==> r[i + 1] == s[i])
  }

  /** The position torch's `unsqueeze(dim)` inserts at on a tensor of rank `rank`. */
  function UnsqueezePosition(rank: nat, dim: int): int {
    if dim < 0 then dim + rank + 1 else dim
  }

  /** `tensor.unsqueeze(dim)`: valid dims are `-(rank+1) .. rank`, others raise `IndexError`. */
  function Unsqueeze(s: Shape, dim: int): (r: Result<Shape>)
    ensures r.Ok? <==> -(|s| + 1) <= dim <= |s|
    ensures r.Ok? ==> InsertedAt(s, r.value, UnsqueezePosition(|s|, dim))
  {
    var k := UnsqueezePosition(|s|, dim);
    if 0 <= k <= |s| then Ok(s[..k] + [1] + s[k..]) else Err(IndexError)
  }

  /** The result of `_add_dim`: one tensor for one argument, a list otherwise. */
  datatype Unsqueezed = One(shape: Shape) | Many(shapes: seq<Shape>)

  function UnsqueezeEach(xs: seq<Shape>, dim: int): (r: Result<seq<Shape>>)
    ensures r.Ok? <==> forall i :: 0 <= i < |xs| ==> -(|xs[i]| + 1) <= dim <= |xs[i]|
    ensures r.Ok? ==> |r.value| == |xs|
    ensures r.Ok? ==> forall i :: 0 <= i < |xs| ==> InsertedAt(xs[i], r.value[i], UnsqueezePosition(|xs[i]|, dim))
  {
    if |xs| == 0 then Ok([])
    else
      var head :- Unsqueeze(xs[0], dim);
      var tail :- UnsqueezeEach(xs[1..], dim);
      assert forall i :: 1 <= i < |xs| ==> xs[i] == xs[1..][i - 1];
      Ok([head] + tail)
  }

  /** `_add_dim(*x, dim)`: inserts a size-one axis at `dim` into every argument;
      with no argument at all the final `out[0]` raises `IndexError`. */
  function AddDim(xs: seq<Shape>, dim: int): (r: Result<Unsqueezed>)
    ensures |xs| == 0 ==> r == Err(IndexError)
    ensures r.Ok? <==> |xs| > 0 && forall i :: 0 <= i < |xs| ==> -(|xs[i]| + 1) <= dim <= |xs[i]|
    ensures r.Ok? && |xs| == 1 ==> r.value.One? && InsertedAt(xs[0], r.value.shape, UnsqueezePosition(|xs[0]|, dim))
    ensures r.Ok? && |xs| > 1 ==>
              && r.value.Many?
              && |r.value.shapes| == |xs|
              && forall i :: 0 <= i < |xs| ==> InsertedAt(xs[i], r.value.shapes[i], UnsqueezePosition(|xs[i]|, dim))
  {
    var out :- UnsqueezeEach(xs, dim);
    if |xs| > 1 then Ok(Many(out))
    else if |out| == 0 then Err(IndexError)
    else Ok(One(out[0]))
  }

  // ---------------------------------------------------------------------
  // Removal

  /** `d if d >= 0 else len(x.shape) + d`. */
  function NormalizeDims(rank: nat, dims: seq<int>): (r: seq<int>)
    ensures |r| == |dims|
    ensures forall i :: 0 <= i < |dims| ==> r[i] == if dims[i] >= 0 then dims[i] else rank + dims[i]
  {
    if |dims| == 0 then []
    else [if dims[0] >= 0 then dims[0] else rank + dims[0]] + NormalizeDims(rank, dims[1..])
  }

  predicate Distinct(s: seq<int>) {
    forall i, j :: 0 <= i < j < |s| ==> s[i] != s[j]
  }

  predicate Descending(s: seq<int>) {
    forall i, j :: 0 <= i < j < |s| ==> s[i] >= s[j]
  }

  predicate StrictlyDescending(s: seq<int>) {
    forall i, j :: 0 <= i < j < |s| ==> s[i] > s[j]
  }

  function Elems(s: seq<int>): set<int> {
    set x | x in s
  }

  /** Inserts `x` in front of the first element it is not smaller than. */
  function Insert(x: int, s: seq<int>): (r: seq<int>)
    ensures |r| == |s| + 1
    ensures multiset(r) == multiset(s) + multiset{x}
    ensures Elems(r) == Elems(s) + {x}
  {
    if |s| == 0 || x >= s[0] then [x] + s
    else
      assert s == [s[0]] + s[1..];
      var rest := Insert(x, s[1..]);
      assert Elems([s[0]] + rest) == {s[0]} + Elems(rest);
      assert Elems(s) == {s[0]} + Elems(s[1..]);
      [s[0]] + rest
  }

  /** In a descending sequence the head bounds every later element. */
  lemma HeadBoundsTail(s: seq<int>)
    requires |s| > 0 && Descending(s)
    ensures forall y :: y in Elems(s[1..]) ==> y <= s[0]
    ensures StrictlyDescending(s) ==> forall y :: y in Elems(s[1..]) ==> y < s[0]
  {
    forall y | y in Elems(s[1..])
      ensures y <= s[0]
      ensures StrictlyDescending(s) ==> y < s[0]
    {
      var k :| 0 <= k < |s[1..]| && s[1..][k] == y;
      assert s[k + 1] == y;
    }
  }

  lemma ConsDescending(a: int, rest: seq<int>)
    requires Descending(rest)
    requires forall y :: y in Elems(rest) ==> y <= a
    ensures Descending([a] + rest)
  {
    var r := [a] + rest;
    forall i, j | 0 <= i < j < |r|
      ensures r[i] >= r[j]
    {
      assert r[j] == rest[j - 1] && rest[j - 1] in Elems(rest);
    }
  }

  lemma ConsStrictlyDescending(a: int, rest: seq<int>)
    requires StrictlyDescending(rest)
    requires forall y :: y in Elems(rest) ==> y < a
    ensures StrictlyDescending([a] + rest)
  {
    var r := [a] + rest;
    forall i, j | 0 <= i < j < |r|
      ensures r[i] > r[j]
    {
      assert r[j] == rest[j - 1] && rest[j - 1] in Elems(rest);
    }
  }

  lemma {:induction false} InsertKeepsOrder(x: int, s: seq<int>)
    requires Descending(s)
    ensures Descending(Insert(x, s))
    ensures StrictlyDescending(s) && x !in s ==> StrictlyDescending(Insert(x, s))
    decreases |s|
  {
    if |s| == 0 {
      assert Insert(x, s) == [x];
    } else if x >= s[0] {
      HeadBoundsTail(s);
      assert Elems(s) == {s[0]} + Elems(s[1..]) by {
        assert s == [s[0]] + s[1..];
      }
      ConsDescending(x, s);
      if StrictlyDescending(s) && x !in s {
        assert x != s[0];
        ConsStrictlyDescending(x, s);
      }
    } else {
      var tail := s[1..];
      var rest := Insert(x, tail);
      assert Insert(x, s) == [s[0]] + rest;
      assert Descending(tail);
      InsertKeepsOrder(x, tail);
      HeadBoundsTail(s);
      assert Elems(rest) == Elems(tail) + {x};
      ConsDescending(s[0], rest);
      if StrictlyDescending(s) && x !in s {
        assert StrictlyDescending(tail) && x !in tail;
        ConsStrictlyDescending(s[0], rest);
      }
    }
  }

  /** `sorted(s, reverse=True)`, as insertion sort. */
  function SortDescending(s: seq<int>): (r: seq<int>)
    ensures |r| == |s|
    ensures multiset(r) == multiset(s)
    ensures Elems(r) == Elems(s)
  {
    if |s| == 0 then []
    else
      assert s == [s[0]] + s[1..];
      Insert(s[0], SortDescending(s[1..]))
  }

  /** The sort orders its result, strictly so when the input has no repeats. */
  lemma {:induction false} SortDescendingOrders(s: seq<int>)
    ensures Descending(SortDescending(s))
    ensures Distinct(s) ==> StrictlyDescending(SortDescending(s))
    decreases |s|
  {
    if |s| > 0 {
      SortDescendingOrders(s[1..]);
      var sorted := SortDescending(s[1..]);
      assert Distinct(s) ==> s[0] !in Elems(s[1..]);
      assert Distinct(s) ==> Distinct(s[1..]);
      InsertKeepsOrder(s[0], sorted);
    }
  }

  /** `tensor.squeeze(dim)`: removes the axis if its size is one, otherwise changes nothing. */
  function Squeeze(s: Shape, d: nat): (r: Shape)
    requires d < |s|
    ensures s[d] == 1 ==> InsertedAt(r, s, d)
    ensures s[d] != 1 ==> r == s
  {
    if s[d] == 1 then s[..d] + s[d + 1..] else s
  }

  /** Squeezes the given axes one after another, highest first. */
  function SqueezeAll(s: Shape, ds: seq<int>): (r: Shape)
    requires StrictlyDescending(ds)
    requires forall i :: 0 <= i < |ds| ==> 0 <= ds[i] < |s|
    ensures |s| - |ds| <= |r| <= |s|
    ensures (forall i :: 0 <= i < |ds| ==> s[ds[i]] != 1) ==> r == s
    decreases |ds|
  {
    if |ds| == 0 then s
    else
      assert forall i :: 0 <= i < |ds| - 1 ==> ds[1..][i] == ds[i + 1];
      SqueezeAll(Squeeze(s, ds[0]), ds[1..])
  }

  /** Reference meaning of removing axes: axis `off + i` of the original
      survives unless it is named in `dims` and has size one; survivors keep
      their order. */
  function KeepFrom(s: Shape, dims: set<int>, off: int): Shape
  {
    if |s| == 0 then []
    else (if off in dims && s[0] == 1 then [] else [s[0]]) + KeepFrom(s[1..], dims, off + 1)
  }

  function Kept(s: Shape, dims: set<int>): Shape {
    KeepFrom(s, dims, 0)
  }

  /** `_remove_dim(x, *dims)`: normalises negative dims, rejects duplicates
      with `ValueError`, fails the range assertion for an axis outside the
      tensor, and otherwise squeezes exactly the named size-one axes, every
      index referring to the original axis position. */
  function RemoveDim(s: Shape, dims: seq<int>): (r: Result<Shape>)
    ensures r.Ok? ==> r.value == Kept(s, Elems(NormalizeDims(|s|, dims)))
  {
    var nd := NormalizeDims(|s|, dims);
    if !Distinct(nd) then Err(ValueError(DuplicateDims(nd)))
    else if !(forall i :: 0 <= i < |nd| ==> 0 <= nd[i] < |s|) then Err(AssertionError)
    else
      var order := SortDescending(nd);
      SortDescendingOrders(nd);
      assert forall i :: 0 <= i < |order| ==> order[i] in Elems(nd);
      SqueezeAllIsKept(s, order);
      Ok(SqueezeAll(s, order))
  }

  /** The three outcomes of `_remove_dim`: `ValueError` exactly for a repeated
      normalised axis, the assertion failure exactly for an axis outside the
      tensor, and success otherwise. */
  lemma RemoveDimOutcomes(s: Shape, dims: seq<int>)
    ensures var nd := NormalizeDims(|s|, dims);
            var r := RemoveDim(s, dims);
            && (!Distinct(nd) <==> r == Err(ValueError(DuplicateDims(nd))))
            && (r == Err(AssertionError) <==> Distinct(nd) && exists i :: 0 <= i < |nd| && !(0 <= nd[i] < |s|))
            && (r.Ok? <==> Distinct(nd) && forall i :: 0 <= i < |nd| ==> 0 <= nd[i] < |s|)
  {
  }

  // ---------------------------------------------------------------------
  // Proof that squeezing highest-first removes exactly the named size-one axes

  lemma {:induction false} KeepFromAppend(a: Shape, b: Shape, dims: set<int>, off: int)
    ensures KeepFrom(a + b, dims, off) == KeepFrom(a, dims, off) + KeepFrom(b, dims, off + |a|)
    decreases |a|
  {
    if |a| == 0 {
      assert a + b == b;
    } else {
      assert (a + b)[1..] == a[1..] + b;
      KeepFromAppend(a[1..], b, dims, off + 1);
    }
  }

  lemma {:induction false} KeepFromUntouched(s: Shape, dims: set<int>, off: int)
    requires forall i :: off <= i < off + |s| ==> i !in dims
    ensures KeepFrom(s, dims, off) == s
    decreases |s|
  {
    if |s| > 0 {
      KeepFromUntouched(s[1..], dims, off + 1);
    }
  }

  lemma {:induction false} KeepFromAgree(s: Shape, d1: set<int>, d2: set<int>, off: int)
    requires forall i :: off <= i < off + |s| ==> (i in d1 <==> i in d2)
    ensures KeepFrom(s, d1, off) == KeepFrom(s, d2, off)
    decreases |s|
  {
    if |s| > 0 {
      KeepFromAgree(s[1..], d1, d2, off + 1);
    }
  }

  lemma {:induction false} SqueezeAllAppend(p: Shape, tail: Shape, ds: seq<int>)
    requires StrictlyDescending(ds)
    requires forall i :: 0 <= i < |ds| ==> 0 <= ds[i] < |p|
    ensures SqueezeAll(p + tail, ds) == SqueezeAll(p, ds) + tail
    decreases |ds|
  {
    if |ds| > 0 {
      var d := ds[0];
      var sq := Squeeze(p, d);
      if p[d] == 1 {
        assert (p + tail)[..d] + (p + tail)[d + 1..] == sq + tail;
      }
      assert Squeeze(p + tail, d) == sq + tail;
      assert |sq| >= d;
      SqueezeAllAppend(sq, tail, ds[1..]);
    }
  }

  /** The axes after the first of a strictly descending list are the ones
      below it. */
  lemma StrictlyDescendingSplit(ds: seq<int>)
    requires |ds| > 0 && StrictlyDescending(ds)
    ensures Elems(ds) == {ds[0]} + Elems(ds[1..])
    ensures forall j :: j in Elems(ds) ==> j <= ds[0]
    ensures StrictlyDescending(ds[1..])
  {
    assert ds == [ds[0]] + ds[1..];
    HeadBoundsTail(ds);
  }

  /** After the highest axis `d` is squeezed, the remaining axes all lie
      below `d`, where they name the same positions as the full list. */
  lemma RestBelowHead(ds: seq<int>, d: nat)
    requires |ds| > 0 && StrictlyDescending(ds) && ds[0] == d
    ensures StrictlyDescending(ds[1..])
    ensures forall i :: 0 <= i < |ds[1..]| ==> ds[1..][i] < d
    ensures forall i :: 0 <= i < d ==> (i in Elems(ds[1..]) <==> i in Elems(ds))
    ensures forall j :: j in Elems(ds) ==> j <= d
  {
    StrictlyDescendingSplit(ds);
    forall i | 0 <= i < |ds[1..]|
      ensures ds[1..][i] < d
    {
      assert ds[1..][i] == ds[i + 1];
    }
  }

  /** The part of the shape at and after the highest squeezed axis. */
  lemma KeepFromHighest(x: nat, q: Shape, e: set<int>, d: int)
    requires d in e
    requires forall j :: j in e ==> j <= d
    ensures KeepFrom([x] + q, e, d) == (if x == 1 then [] else [x]) + q
  {
    KeepFromUntouched(q, e, d + 1);
    KeepFromAppend([x], q, e, d);
    assert KeepFrom([x], e, d) == (if x == 1 then [] else [x]) + KeepFrom([], e, d + 1);
  }

  /** What is left at and after axis `d` once it is squeezed. */
  function SqueezedSuffix(s: Shape, d: nat): Shape
    requires d < |s|
  {
    (if s[d] == 1 then [] else [s[d]]) + s[d + 1..]
  }

  /** Squeezing the highest axis first splits off the untouched suffix. */
  lemma SqueezeHighest(s: Shape, ds: seq<int>)
    requires |ds| > 0 && StrictlyDescending(ds)
    requires forall i :: 0 <= i < |ds| ==> 0 <= ds[i] < |s|
    ensures StrictlyDescending(ds[1..])
    ensures forall i :: 0 <= i < |ds[1..]| ==> 0 <= ds[1..][i] < ds[0]
    ensures SqueezeAll(s, ds) == SqueezeAll(s[..ds[0]], ds[1..]) + SqueezedSuffix(s, ds[0])
  {
    var d := ds[0];
    RestBelowHead(ds, d);
    assert Squeeze(s, d) == s[..d] + SqueezedSuffix(s, d);
    SqueezeAllAppend(s[..d], SqueezedSuffix(s, d), ds[1..]);
  }

  /** The reference meaning splits off the same suffix. */
  lemma KeptHighest(s: Shape, ds: seq<int>)
    requires |ds| > 0 && StrictlyDescending(ds)
    requires forall i :: 0 <= i < |ds| ==> 0 <= ds[i] < |s|
    ensures Kept(s, Elems(ds)) == Kept(s[..ds[0]], Elems(ds[1..])) + SqueezedSuffix(s, ds[0])
  {
    var d := ds[0];
    var e := Elems(ds);
    var p := s[..d];
    RestBelowHead(ds, d);
    assert s == p + ([s[d]] + s[d + 1..]);
    KeepFromAgree(p, Elems(ds[1..]), e, 0);
    KeepFromAppend(p, [s[d]] + s[d + 1..], e, 0);
    assert d in e;
    KeepFromHighest(s[d], s[d + 1..], e, d);
  }

  lemma {:induction false} SqueezeAllIsKept(s: Shape, ds: seq<int>)
    requires StrictlyDescending(ds)
    requires forall i :: 0 <= i < |ds| ==> 0 <= ds[i] < |s|
    ensures SqueezeAll(s, ds) == Kept(s, Elems(ds))
    decreases |ds|
  {
    if |ds| == 0 {
      KeepFromUntouched(s, Elems(ds), 0);
    } else {
      SqueezeHighest(s, ds);
      KeptHighest(s, ds);
      SqueezeAllIsKept(s[..ds[0]], ds[1..]);
    }
  }

  // ---------------------------------------------------------------------
  // Round trip and the shapes the scoring entry points rely on

  /** The inserted axis itself is dropped and nothing after it is touched. */
  lemma DropInsertedAxis(q: Shape, k: int)
    ensures KeepFrom([1] + q, {k}, k) == q
  {
    assert ([1] + q)[1..] == q;
    KeepFromUntouched(q, {k}, k + 1);
  }

  /** Dropping the size-one axis inserted between `p` and `q` gives back
      `p + q`. */
  lemma KeptWithoutInserted(p: Shape, q: Shape)
    ensures Kept(p + ([1] + q), {|p|}) == p + q
  {
    KeepFromAppend(p, [1] + q, {|p|}, 0);
    KeepFromUntouched(p, {|p|}, 0);
    DropInsertedAxis(q, |p|);
  }

  /** Naming a single axis inside the tensor always succeeds. */
  lemma RemoveOneAxis(u: Shape, dim: int, k: nat)
    requires k < |u| && NormalizeDims(|u|, [dim]) == [k]
    ensures RemoveDim(u, [dim]) == Ok(Kept(u, {k}))
  {
    var nd := NormalizeDims(|u|, [dim]);
    assert Distinct(nd);
    assert forall i :: 0 <= i < |nd| ==> 0 <= nd[i] < |u|;
    assert Elems(nd) == {k};
  }

  /** Removing the axis `unsqueeze(dim)` just inserted gives back the original
      shape, for every valid `dim`, negative ones included. */
  lemma UnsqueezeThenRemove(s: Shape, dim: int)
    requires -(|s| + 1) <= dim <= |s|
    ensures RemoveDim(Unsqueeze(s, dim).value, [dim]) == Ok(s)
  {
    var k := UnsqueezePosition(|s|, dim);
    var u := Unsqueeze(s, dim).value;
    assert u == s[..k] + ([1] + s[k..]);
    RemoveOneAxis(u, dim, k);
    KeptWithoutInserted(s[..k], s[k..]);
    assert s[..k] + s[k..] == s;
  }

  /** Removal on a 4-D score shape, with the batch axis (0) never named. */
  lemma {:induction false} KeptOfScores(s: Shape, e: set<int>)
    requires |s| == 4 && 0 !in e
    ensures Kept(s, e)
              == [s[0]] + (if 1 in e && s[1] == 1 then [] else [s[1]])
                        + (if 2 in e && s[2] == 1 then [] else [s[2]])
                        + (if 3 in e && s[3] == 1 then [] else [s[3]])
  {
    assert s[1..][1..] == s[2..] && s[2..][1..] == s[3..] && s[3..][1..] == [];
    assert KeepFrom(s[3..], e, 3) == (if 3 in e && s[3] == 1 then [] else [s[3]]);
    assert KeepFrom(s[2..], e, 2) == (if 2 in e && s[2] == 1 then [] else [s[2]]) + KeepFrom(s[3..], e, 3);
    assert KeepFrom(s[1..], e, 1) == (if 1 in e && s[1] == 1 then [] else [s[1]]) + KeepFrom(s[2..], e, 2);
    assert Kept(s, e) == [s[0]] + KeepFrom(s[1..], e, 1);
  }

  /** Naming distinct axes that all lie inside the tensor always succeeds. */
  lemma RemoveDistinctAxes(s: Shape, dims: seq<int>)
    requires Distinct(dims) && forall i :: 0 <= i < |dims| ==> 0 <= dims[i] < |s|
    ensures RemoveDim(s, dims) == Ok(Kept(s, Elems(dims)))
  {
    var nd := NormalizeDims(|s|, dims);
    assert nd == dims;
  }

  /** A 4-D score shape with each named candidate axis of size one dropped. */
  function ScoreKept(s: Shape, e: set<int>): Shape
    requires |s| == 4
  {
    [s[0]] + (if 1 in e && s[1] == 1 then [] else [s[1]])
           + (if 2 in e && s[2] == 1 then [] else [s[2]])
           + (if 3 in e && s[3] == 1 then [] else [s[3]])
  }

  /** Removing distinct candidate axes (1, 2 or 3) from a 4-D score shape
      drops each named axis exactly when its size is one. */
  lemma RemoveScoreAxes(scores: Shape, dims: seq<int>)
    requires |scores| == 4
    requires Distinct(dims) && forall i :: 0 <= i < |dims| ==> 1 <= dims[i] <= 3
    ensures RemoveDim(scores, dims) == Ok(ScoreKept(scores, Elems(dims)))
  {
    RemoveDistinctAxes(scores, dims);
    assert 0 !in Elems(dims);
    KeptOfScores(scores, Elems(dims));
  }

  /** `score_hrt`'s removal of axes 1, 2, 3 from `(batch, 1, 1, 1)`. */
  lemma RemoveAllCandidateAxes(scores: Shape, dims: seq<int>, batch: nat)
    requires scores == [batch, 1, 1, 1] && |dims| == 3 && dims[0] == 1 && dims[1] == 2 && dims[2] == 3
    ensures RemoveDim(scores, dims) == Ok([batch])
  {
    assert ScoreKept(scores, Elems(dims)) == [batch] by {
      assert dims[0] in Elems(dims) && dims[1] in Elems(dims) && dims[2] in Elems(dims);
      assert [batch] + [] + [] + [] == [batch];
    }
    RemoveScoreAxes(scores, dims);
  }

  /** `score_h`'s removal of axes 2 and 3 from `(batch, n, 1, 1)` keeps the
      head axis whatever its size. */
  lemma RemoveRelationAndTailAxes(scores: Shape, dims: seq<int>, batch: nat, n: nat)
    requires scores == [batch, n, 1, 1] && |dims| == 2 && dims[0] == 2 && dims[1] == 3
    ensures RemoveDim(scores, dims) == Ok([batch, n])
  {
    assert ScoreKept(scores, Elems(dims)) == [batch, n] by {
      assert dims[0] in Elems(dims) && dims[1] in Elems(dims);
      assert 1 !in Elems(dims);
      assert [batch] + [n] + [] + [] == [batch, n];
    }
    RemoveScoreAxes(scores, dims);
  }

  /** `score_r`'s removal of axes 1 and 3 from `(batch, 1, n, 1)`. */
  lemma RemoveHeadAndTailAxes(scores: Shape, dims: seq<int>, batch: nat, n: nat)
    requires scores == [batch, 1, n, 1] && |dims| == 2 && dims[0] == 1 && dims[1] == 3
    ensures RemoveDim(scores, dims) == Ok([batch, n])
  {
    assert ScoreKept(scores, Elems(dims)) == [batch, n] by {
      assert dims[0] in Elems(dims) && dims[1] in Elems(dims);
      assert 2 !in Elems(dims);
      assert [batch] + [] + [n] + [] == [batch, n];
    }
    RemoveScoreAxes(scores, dims);
  }

  /** `score_t`'s removal of axes 1 and 2 from `(batch, 1, 1, n)`. */
  lemma RemoveHeadAndRelationAxes(scores: Shape, dims: seq<int>, batch: nat, n: nat)
    requires scores == [batch, 1, 1, n] && |dims| == 2 && dims[0] == 1 && dims[1] == 2
    ensures RemoveDim(scores, dims) == Ok([batch, n])
  {
    assert ScoreKept(scores, Elems(dims)) == [batch, n] by {
      assert dims[0] in Elems(dims) && dims[1] in Elems(dims);
      assert 3 !in Elems(dims);
      assert [batch] + [] + [] + [n] == [batch, n];
    }
    RemoveScoreAxes(scores, dims);
  }
}

=== FILE: factorization.dfy ===
/** The geometry resolver used by ConvE: completes a partially specified
    (input channels, width, height) triple so that its product is the
    embedding dimension, or raises. */
module Factorization {
  import opened Outcomes

  /** A resolved geometry, in the order the resolver returns it: channels, width, height. */
  datatype Geometry = Geometry(channels: nat, width: nat, height: nat) {
    function Size(): nat {
      channels * width * height
    }
  }

  /** The caller's partial geometry; `None` is Python's `None`. */
  datatype Factors = Factors(channels: Option<nat>, width: Option<nat>, height: Option<nat>) {

    function AsTuple(): (Option<nat>, Option<nat>, Option<nat>) {
      (channels, width, height)
    }

    function UnsetCount(): nat {
      (if channels.None? then 1 else 0) + (if width.None? then 1 else 0) + (if height.None? then 1 else 0)
    }

    predicate AllUnset() {
      channels.None? && width.None? && height.None?
    }

    /** Every factor the caller did supply is positive. */
    predicate SuppliedPositive() {
      && (channels.Some? ==> channels.value > 0)
      && (width.Some? ==> width.value > 0)
      && (height.Some? ==> height.value > 0)
    }

    /** `g` keeps every factor that is set here. */
    predicate ExtendedBy(g: Geometry) {
      && (channels.Some? ==> g.channels == channels.value)
      && (width.Some? ==> g.width == width.value)
      && (height.Some? ==> g.height == height.value)
    }
  }

  const Unset := Factors(None, None, None)

  predicate Divides(f: nat, n: nat) {
    f > 0 && n % f == 0
  }

  lemma SquareMonotonic(a: nat, b: nat)
    requires a <= b
    ensures a * a <= b * b
  {
    assert a * a <= a * b <= b * b;
  }

  /** `math.floor(math.sqrt(n))`, taken as the exact integer square root. */
  function Isqrt(n: nat): (k: nat)
    ensures k * k <= n < (k + 1) * (k + 1)
  {
    if n == 0 then 0
    else
      var k := Isqrt(n - 1);
      if (k + 1) * (k + 1) <= n then
        assert n == (k + 1) * (k + 1);
        assert (k + 2) * (k + 2) == (k + 1) * (k + 1) + 2 * k + 3;
        k + 1
      else k
  }

  /** The integer square root is the only `k` with `k² ≤ n < (k+1)²`. */
  lemma IsqrtUnique(n: nat, k: nat)
    requires k * k <= n < (k + 1) * (k + 1)
    ensures Isqrt(n) == k
  {
    var m := Isqrt(n);
    if m < k {
      SquareMonotonic(m + 1, k);
    } else if k < m {
      SquareMonotonic(k + 1, m);
    }
  }

  /** `max(f for f in range(1, bound + 1) if n % f == 0)`; `None` where that
      generator is empty and `max` raises. */
  function LargestDivisorUpTo(n: nat, bound: nat): (r: Option<nat>)
    ensures r.Some? ==> 1 <= r.value <= bound && Divides(r.value, n)
    ensures r.Some? ==> forall g :: r.value < g <= bound ==> !Divides(g, n)
    ensures r.None? <==> forall g :: 1 <= g <= bound ==> !Divides(g, n)
  {
    if bound == 0 then None
    else if n % bound == 0 then
      assert Divides(bound, n);
      Some(bound)
    else LargestDivisorUpTo(n, bound - 1)
  }

  /** Step 1: with every factor unset, choose one channel and the most nearly
      square height <= width split. */
  function DefaultAllUnset(embeddingDim: nat, given: Factors): (r: Result<Factors>)
    ensures !given.AllUnset() ==> r == Ok(given)
    ensures given.AllUnset() ==> (r.Ok? <==> embeddingDim >= 1)
    ensures r.Err? ==> r.error == ValueError(EmptyMaxArgument)
    ensures given.AllUnset() && r.Ok? ==>
              && r.value.UnsetCount() == 0
              && r.value.channels == Some(1)
              && r.value.width.value * r.value.height.value == embeddingDim
              && r.value.height.value <= r.value.width.value
  {
    if given.AllUnset() then
      IsqrtPositive(embeddingDim);
      assert Divides(1, embeddingDim);
      match LargestDivisorUpTo(embeddingDim, Isqrt(embeddingDim))
      case None => Err(ValueError(EmptyMaxArgument))
      case Some(h) =>
        NearSquareSplit(embeddingDim, h);
        Ok(Factors(Some(1), Some(embeddingDim / h), Some(h)))
    else Ok(given)
  }

  lemma IsqrtPositive(n: nat)
    ensures n >= 1 ==> Isqrt(n) >= 1
  {
    var k: int := Isqrt(n);
    assert k == 0 ==> (k + 1) * (k + 1) == 1;
  }

  /** Step 2: channels default to one when they and a spatial factor are unset. */
  function DefaultChannels(f: Factors): (r: Factors)
    ensures r.width == f.width && r.height == f.height
    ensures f.channels.Some? ==> r.channels == f.channels
    ensures f.channels.None? ==> (r.channels == Some(1) <==> f.width.None? || f.height.None?)
    ensures r.UnsetCount() <= 1 <==> f.width.Some? || f.height.Some?
  {
    if f.channels.None? && (f.width.None? || f.height.None?) then f.(channels := Some(1)) else f
  }

  /** Steps 3 to 5: fill the one missing factor by floor division, width first,
      then height, then channels. */
  function FillMissing(embeddingDim: nat, f: Factors): (r: Result<Geometry>)
    requires f.UnsetCount() <= 1
    ensures r.Ok? ==> f.ExtendedBy(r.value)
  {
    var f1 :-
      if f.width.None? then
        var d := f.height.value * f.channels.value;
        if d == 0 then Err(ZeroDivisionError) else Ok(f.(width := Some(embeddingDim / d)))
      else Ok(f);
    var f2 :-
      if f1.height.None? then
        var d := f1.width.value * f1.channels.value;
        if d == 0 then Err(ZeroDivisionError) else Ok(f1.(height := Some(embeddingDim / d)))
      else Ok(f1);
    var f3 :-
      if f2.channels.None? then
        var d := f2.width.value * f2.height.value;
        if d == 0 then Err(ZeroDivisionError) else Ok(f2.(channels := Some(embeddingDim / d)))
      else Ok(f2);
    Ok(Geometry(f3.channels.value, f3.width.value, f3.height.value))
  }

  /** `_calculate_missing_shape_information`: the resolved geometry multiplies out
      to the embedding dimension and keeps every supplied factor; a product
      mismatch raises `ValueError` naming the original input and the target. */
  function Resolve(embeddingDim: nat, given: Factors): (r: Result<Geometry>)
    ensures r.Ok? ==> r.value.Size() == embeddingDim
    ensures r.Ok? ==> given.ExtendedBy(r.value)
    ensures r.Err? && r.error.ValueError? ==>
              r.error == ValueError(NoFactorization(given.AsTuple(), embeddingDim))
              || (given.AllUnset() && r.error == ValueError(EmptyMaxArgument))
  {
    var original := given.AsTuple();
    var step1 :- DefaultAllUnset(embeddingDim, given);
    var step2 := DefaultChannels(step1);
    if step2.UnsetCount() > 1 then Err(AssertionError)
    else
      var g :- FillMissing(embeddingDim, step2);
      if g.channels * g.width * g.height != embeddingDim then
        Err(ValueError(NoFactorization(original, embeddingDim)))
      else Ok(g)
  }

  lemma MultipleOfDivisor(x: int, d: int)
    requires d > 0
    ensures x >= 1 ==> x * d >= d
    ensures x <= -1 ==> x * d <= -d
  {
  }

  lemma ExactQuotient(a: nat, d: nat, n: nat)
    requires d > 0 && a * d == n
    ensures n / d == a
  {
    var q := n / d;
    var m := n % d;
    assert q * d + m == n;
    assert (a - q) * d == m;
    MultipleOfDivisor(a - q, d);
  }

  lemma CancelFactor(h: nat, a: nat, b: nat)
    requires h > 0 && h * a <= h * b
    ensures a <= b
  {
    MultipleOfDivisor(a - b, h);
    assert h * a - h * b == (a - b) * h;
  }

  /** The split chosen at the first step: height divides the dimension, does
      not exceed the integer square root, and so is at most the width. */
  lemma {:induction false} NearSquareSplit(n: nat, h: nat)
    requires Divides(h, n) && h <= Isqrt(n)
    ensures h * (n / h) == n
    ensures h <= n / h
  {
    var s := Isqrt(n);
    var w := n / h;
    assert h * w == n;
    SquareMonotonic(h, s);
    assert h * h <= h * w;
    CancelFactor(h, h, w);
  }

  /** With nothing supplied and a positive dimension, the resolver never fails:
      one channel, the largest divisor not above the integer square root as
      height, and the cofactor as width (so height <= width). */
  lemma {:induction false} AllUnsetResolves(embeddingDim: nat)
    requires embeddingDim >= 1
    ensures var r := Resolve(embeddingDim, Unset);
            && r.Ok?
            && r.value.channels == 1
            && r.value.height <= Isqrt(embeddingDim)
            && Divides(r.value.height, embeddingDim)
            && (forall g :: r.value.height < g <= Isqrt(embeddingDim) ==> !Divides(g, embeddingDim))
            && r.value.width == embeddingDim / r.value.height
            && r.value.height <= r.value.width
  {
    var s := Isqrt(embeddingDim);
    assert 1 <= s by {
      var k: int := s;
      assert k == 0 ==> (k + 1) * (k + 1) == 1;
    }
    assert Divides(1, embeddingDim);
    var h := LargestDivisorUpTo(embeddingDim, s).value;
    var w := embeddingDim / h;
    NearSquareSplit(embeddingDim, h);
    var f := Factors(Some(1), Some(w), Some(h));
    assert DefaultAllUnset(embeddingDim, Unset) == Ok(f);
    assert DefaultChannels(f) == f;
    assert FillMissing(embeddingDim, f) == Ok(Geometry(1, w, h));
    assert 1 * w * h == embeddingDim;
  }

  /** A zero dimension with nothing supplied makes `max()` see an empty range. */
  lemma AllUnsetZeroFails()
    ensures Resolve(0, Unset) == Err(ValueError(EmptyMaxArgument))
  {
    assert Isqrt(0) == 0;
  }

  /** Channels supplied on their own leave two factors unset: the assertion at
      the third step fails before any division happens. */
  lemma ChannelsAloneFailAssertion(embeddingDim: nat, channels: nat)
    ensures Resolve(embeddingDim, Factors(Some(channels), None, None)) == Err(AssertionError)
  {
  }

  /** The product of the factors that are set; an unset one counts as 1. */
  function SuppliedProduct(f: Factors): nat {
    (if f.channels.Some? then f.channels.value else 1)
    * (if f.width.Some? then f.width.value else 1)
    * (if f.height.Some? then f.height.value else 1)
  }

  /** Python's `//` on lines 329-333 raises `ZeroDivisionError` exactly when
      something was supplied, one factor is still missing after the channel
      default, and the two factors that are set multiply to zero. */
  lemma ZeroDivisorRaises(embeddingDim: nat, given: Factors)
    ensures var f := DefaultChannels(given);
            Resolve(embeddingDim, given) == Err(ZeroDivisionError) <==>
              !given.AllUnset() && f.UnsetCount() == 1 && SuppliedProduct(f) == 0
  {
    var f := DefaultChannels(given);
    if !given.AllUnset() && f.UnsetCount() == 1 {
      assert DefaultAllUnset(embeddingDim, given) == Ok(given);
      if f.width.None? {
        assert SuppliedProduct(f) == f.channels.value * f.height.value;
      } else if f.height.None? {
        assert SuppliedProduct(f) == f.channels.value * f.width.value;
      } else {
        assert SuppliedProduct(f) == f.width.value * f.height.value;
      }
    }
  }

  /** A supplied width of 0 with dimension 0: the completion (1, 0, 5) exists,
      yet the resolver divides by `0 * 1` on line 331. */
  lemma ZeroWidthRaises()
    ensures DefaultChannels(Factors(None, Some(0), None)).ExtendedBy(Geometry(1, 0, 5))
    ensures Geometry(1, 0, 5).Size() == 0
    ensures Resolve(0, Factors(None, Some(0), None)) == Err(ZeroDivisionError)
  {
    ZeroDivisorRaises(0, Factors(None, Some(0), None));
  }

  /** Filling the single missing factor finds the only value that completes the product. */
  lemma {:induction false} FillMissingFindsCompletion(embeddingDim: nat, f: Factors, g: Geometry)
    requires f.UnsetCount() <= 1 && f.SuppliedPositive() && f.ExtendedBy(g)
    requires g.Size() == embeddingDim
    ensures FillMissing(embeddingDim, f) == Ok(g)
  {
    if f.width.None? {
      var d := f.height.value * f.channels.value;
      assert g.width * d == embeddingDim;
      ExactQuotient(g.width, d, embeddingDim);
    } else if f.height.None? {
      var d := f.width.value * f.channels.value;
      assert g.height * d == embeddingDim;
      ExactQuotient(g.height, d, embeddingDim);
    } else if f.channels.None? {
      var d := f.width.value * f.height.value;
      assert g.channels * d == embeddingDim;
      ExactQuotient(g.channels, d, embeddingDim);
    }
  }

  /** Completeness: when at most one factor is missing after the channel
      default and every supplied factor is positive, any completion whose
      product is the target is exactly what the resolver returns. Together
      with the postcondition of `Resolve`, the resolver succeeds iff such a
      completion exists. */
  lemma {:induction false} ResolveFindsCompletion(embeddingDim: nat, given: Factors, g: Geometry)
    requires !given.AllUnset() && given.SuppliedPositive()
    requires DefaultChannels(given).UnsetCount() <= 1
    requires DefaultChannels(given).ExtendedBy(g)
    requires g.Size() == embeddingDim
    ensures Resolve(embeddingDim, given) == Ok(g)
  {
    var f := DefaultChannels(given);
    assert DefaultAllUnset(embeddingDim, given) == Ok(given);
    FillMissingFindsCompletion(embeddingDim, f, g);
    assert g.channels * g.width * g.height == embeddingDim;
  }

  /** One spatial factor supplied with channels unset: channels default to one
      and the other spatial factor is the floor quotient; the call succeeds
      iff the supplied factor divides the dimension. */
  lemma OneSpatialFactorGiven(embeddingDim: nat, height: nat)
    requires height > 0
    ensures var r := Resolve(embeddingDim, Factors(None, None, Some(height)));
            && (r.Ok? <==> embeddingDim % height == 0)
            && (r.Ok? ==> r.value == Geometry(1, embeddingDim / height, height))
            && (r.Err? ==> r.error == ValueError(NoFactorization((None, None, Some(height)), embeddingDim)))
  {
    var w := embeddingDim / height;
    assert 1 * w * height == w * height;
  }

  /** The resolver on the dimension ConvE uses by default: 200 = 1 * 20 * 10,
      height 10 being the largest divisor of 200 not above 14. */
  lemma DefaultConvEGeometry()
    ensures Resolve(200, Unset) == Ok(Geometry(1, 20, 10))
  {
    IsqrtUnique(200, 14);
    assert LargestDivisorUpTo(200, 14) == LargestDivisorUpTo(200, 13);
    assert LargestDivisorUpTo(200, 13) == LargestDivisorUpTo(200, 12);
    assert LargestDivisorUpTo(200, 12) == LargestDivisorUpTo(200, 11);
    assert LargestDivisorUpTo(200, 11) == LargestDivisorUpTo(200, 10);
    assert LargestDivisorUpTo(200, 10) == Some(10);
  }

  /** Supplying channels and width fixes height to the quotient: 200 = 2 * 10 * 10. */
  lemma ChannelsAndWidthGiven()
    ensures Resolve(200, Factors(Some(2), Some(10), None)) == Ok(Geometry(2, 10, 10))
  {
    ResolveFindsCompletion(200, Factors(Some(2), Some(10), None), Geometry(2, 10, 10));
  }
}

=== FILE: interactions.dfy ===
/** The interaction variants and the shape behaviour of their `forward`:
    keyword handling, the layout checks a variant performs itself, and the
    documented result shape (batch, num_heads, num_relations, num_tails). The
    numeric kernels are not modelled; a kernel is taken to produce that
    result shape, broadcasting the batch axes of the tensors it receives. */
module Interactions {
  import opened Outcomes
  import opened Axes
  import opened Kwargs
  import opened Variants

  /** The kernels wrapped by `_build_module_from_stateless`. */
  datatype Kernel = ComplEx | DistMult | RotatE | HolE | RESCAL

  datatype Interaction =
    | StatelessInteraction(kernel: Kernel)
    | TransEInteraction(p: int, powerNorm: bool)
    | ConvEInteraction(conve: ConvE)
    | ConvKBInteraction(convkb: ConvKB)
    | ERMLPInteraction(ermlp: ERMLP)
    | ERMLPEInteraction(ermlpe: ERMLPE)
    | TransRInteraction(p: int, powerNorm: bool)
    | StructuredEmbeddingInteraction(p: int, powerNorm: bool)
    | TuckerInteraction(tucker: Tucker)
    | UnstructuredModelInteraction(p: int, powerNorm: bool)
    | TransDInteraction(p: int, powerNorm: bool)

  /** How each variant's `forward` treats its keyword arguments. */
  function ProtocolOf(v: Interaction): (p: Protocol)
    ensures Required(p) != {} <==> v.ConvEInteraction? || v.TransRInteraction? || v.TransDInteraction?
    ensures !RejectsLeftovers(p) <==>
              v.TransDInteraction? || v.ConvKBInteraction? || v.StructuredEmbeddingInteraction?
  {
    match v
    case ConvEInteraction(_) => TailBias
    case TransRInteraction(_, _) => RelationMatrix
    case TransDInteraction(_, _) => ProjectionVectors
    case ConvKBInteraction(_) => Unchecked
    case StructuredEmbeddingInteraction(_, _) => Unchecked
    case _ => NoExtras
  }

  /** Whether the head and relation representations fit the reshaping a
      variant does before its kernel; only Structured Embedding reshapes. */
  predicate LayoutFits(v: Interaction, h: Shape, r: Shape) {
    v.StructuredEmbeddingInteraction? ==> |h| >= 1 && |r| >= 1 && RelationSplits(h, r)
  }

  /** The layout check only looks at the head's last axis, the relation's last
      axis and the number of elements along the relation's leading axes. */
  lemma LayoutFitsAgree(v: Interaction, h: Shape, r: Shape, h': Shape, r': Shape)
    requires |h| >= 1 && |r| >= 1 && |h'| >= 1 && |r'| >= 1
    requires h[|h| - 1] == h'[|h'| - 1] && r[|r| - 1] == r'[|r'| - 1]
    requires Product(r[..|r| - 1]) == Product(r'[..|r'| - 1])
    ensures LayoutFits(v, h, r) <==> LayoutFits(v, h', r')
  {
  }

  /** Whether the variant hands the relation representation to its kernel.
      Unstructured Model's kernel receives only head and tail (line 770). */
  predicate SeesRelation(v: Interaction) {
    !v.UnstructuredModelInteraction?
  }

  /** The names `forward` binds as parameters; Python never places them in
      its `**kwargs`. */
  const ForwardParameters: set<string> := {"h", "r", "t"}

  /** Batch sizes broadcast when all of them other than 1 agree. */
  predicate Broadcastable(a: nat, b: nat, c: nat) {
    && (a == 1 || b == 1 || a == b)
    && (a == 1 || c == 1 || a == c)
    && (b == 1 || c == 1 || b == c)
  }

  /** The broadcast batch size: the common size other than 1, or 1. */
  function BroadcastSize(a: nat, b: nat, c: nat): nat {
    if a != 1 then a else if b != 1 then b else c
  }

  /** Whether the batch sizes the kernel receives broadcast; a relation the
      kernel never receives takes no part. */
  predicate BatchesBroadcast(v: Interaction, h: Shape, r: Shape, t: Shape)
    requires |h| >= 1 && |r| >= 1 && |t| >= 1
  {
    Broadcastable(h[0], if SeesRelation(v) then r[0] else 1, t[0])
  }

  /** The reshaping a variant performs itself before calling its kernel. */
  function Prepare(v: Interaction, h: Shape, r: Shape): (res: Result<()>)
    requires |h| >= 1 && |r| >= 1
    ensures res.Ok? <==> LayoutFits(v, h, r)
  {
    if v.StructuredEmbeddingInteraction? then
      var _ :- SplitRelationShape(h, r);
      Ok(())
    else Ok(())
  }

  /** The documented kernel result shape, with the batch axis broadcast. A
      kernel that never receives the relations scores one relation per row. */
  function KernelShape(v: Interaction, h: Shape, r: Shape, t: Shape): (res: Result<Shape>)
    requires |h| >= 2 && |r| >= 2 && |t| >= 2
    ensures res.Ok? <==> BatchesBroadcast(v, h, r, t)
    ensures res.Ok? ==>
              && |res.value| == 4
              && res.value[1] == h[1] && res.value[3] == t[1]
              && res.value[2] == (if SeesRelation(v) then r[1] else 1)
              && (h[0] == 1 || h[0] == res.value[0])
              && (!SeesRelation(v) || r[0] == 1 || r[0] == res.value[0])
              && (t[0] == 1 || t[0] == res.value[0])
              && (res.value[0] == h[0] || (SeesRelation(v) && res.value[0] == r[0]) || res.value[0] == t[0])
  {
    var relationBatch := if SeesRelation(v) then r[0] else 1;
    var relations := if SeesRelation(v) then r[1] else 1;
    if !Broadcastable(h[0], relationBatch, t[0]) then Err(RuntimeError(BroadcastMismatch))
    else Ok([BroadcastSize(h[0], relationBatch, t[0]), h[1], relations, t[1]])
  }

  /** The result shape of `forward`: its keyword handling first, then the
      variant's own reshaping, then the kernel. */
  function Forward(v: Interaction, h: Shape, r: Shape, t: Shape, kw: map<string, Shape>): (res: Result<Shape>)
    requires |h| >= 2 && |r| >= 2 && |t| >= 2
    requires kw.Keys !! ForwardParameters
    ensures res.Ok? <==> Accepts(ProtocolOf(v), kw.Keys) && LayoutFits(v, h, r) && BatchesBroadcast(v, h, r, t)
    ensures res.Ok? ==> res == KernelShape(v, h, r, t)
    ensures Extras(ProtocolOf(v), kw).Err? ==> res == Err(Extras(ProtocolOf(v), kw).error)
  {
    var extras := Extras(ProtocolOf(v), kw);
    ExtrasMatchAccepts(ProtocolOf(v), kw);
    if extras.Err? then Err(extras.error)
    else
      var _ :- Prepare(v, h, r);
      KernelShape(v, h, r, t)
  }

  /** Unstructured Model's outcome does not depend on the relation at all,
      and its scores carry a relation axis of 1. */
  lemma UnstructuredIgnoresRelation(p: int, powerNorm: bool, h: Shape, r: Shape, r': Shape, t: Shape, kw: map<string, Shape>)
    requires |h| >= 2 && |r| >= 2 && |r'| >= 2 && |t| >= 2
    requires kw.Keys !! ForwardParameters
    ensures var v := UnstructuredModelInteraction(p, powerNorm);
            Forward(v, h, r, t, kw) == Forward(v, h, r', t, kw)
    ensures var res := Forward(UnstructuredModelInteraction(p, powerNorm), h, r, t, kw);
            res.Ok? ==> res.value == [BroadcastSize(h[0], 1, t[0]), h[1], 1, t[1]]
  {
  }

  /** A relation batch that broadcasts with neither head nor tail is no
      error for Unstructured Model, and its many candidate relations score
      as one. */
  lemma UnstructuredRelationProbe()
    ensures Forward(UnstructuredModelInteraction(1, true), [3, 1, 4], [5, 1, 4], [3, 1, 4], map[]) == Ok([3, 1, 1, 1])
    ensures Forward(UnstructuredModelInteraction(1, true), [3, 1, 4], [1, 7, 4], [3, 1, 4], map[]) == Ok([3, 1, 1, 1])
    ensures Forward(TransEInteraction(1, true), [3, 1, 4], [5, 1, 4], [3, 1, 4], map[]) == Err(RuntimeError(BroadcastMismatch))
  {
  }

  /** A variant that takes no keyword arguments accepts a call without any,
      and each keyword-taking variant rejects it with the exception its own
      keyword handling raises. */
  lemma ForwardWithoutKeywords(v: Interaction, h: Shape, r: Shape, t: Shape)
    requires |h| >= 2 && |r| >= 2 && |t| >= 2
    ensures ProtocolOf(v).NoExtras? || ProtocolOf(v).Unchecked? ==>
              (Forward(v, h, r, t, map[]).Ok? <==> LayoutFits(v, h, r) && BatchesBroadcast(v, h, r, t))
    ensures v.ConvEInteraction? ==> Forward(v, h, r, t, map[]) == Err(TypeError(MissingKeyword("t_bias")))
    ensures v.TransRInteraction? ==> Forward(v, h, r, t, map[]) == Err(KeyError("m_r"))
    ensures v.TransDInteraction? ==> Forward(v, h, r, t, map[]) == Err(KeyError("h_p"))
  {
    var none: map<string, Shape> := map[];
    ExtrasErrors(ProtocolOf(v), none);
    ExtrasMatchAccepts(ProtocolOf(v), none);
  }

  /** Structured Embedding never looks at its keyword arguments; its relation
      must hold exactly two square matrices of the head's width per leading
      index, and a relation without elements only has to split into two. */
  lemma StructuredEmbeddingForward(p: int, powerNorm: bool, h: Shape, r: Shape, t: Shape, kw: map<string, Shape>)
    requires |h| >= 2 && |r| >= 2 && |t| >= 2
    requires Broadcastable(h[0], r[0], t[0])
    requires kw.Keys !! ForwardParameters
    ensures var dim := h[|h| - 1];
            Product(r[..|r| - 1]) > 0 ==>
              (Forward(StructuredEmbeddingInteraction(p, powerNorm), h, r, t, kw).Ok? <==>
                dim >= 1 && r[|r| - 1] == 2 * (dim * dim))
    ensures var dim := h[|h| - 1];
            Product(r[..|r| - 1]) == 0 ==>
              (Forward(StructuredEmbeddingInteraction(p, powerNorm), h, r, t, kw).Ok? <==>
                dim >= 1 && dim * dim < r[|r| - 1] <= 2 * (dim * dim))
  {
  }
}

=== FILE: kwargs.dfy ===
/** The extra keyword arguments an interaction's `forward` takes, and how each
    variant consumes them. Keyword arguments are a finite map from name to
    value. */
module Kwargs {
  import opened Outcomes

  /** `_check_for_empty_kwargs`: raises `ValueError` naming the leftover keywords
      exactly when there are any. */
  function CheckEmpty<V>(kw: map<string, V>): (r: Result<()>)
    ensures r.Ok? <==> kw.Keys == {}
    ensures r.Err? ==> r.error == ValueError(UnexpectedKwargs(kw.Keys))
  {
    if |kw| > 0 then Err(ValueError(UnexpectedKwargs(kw.Keys))) else Ok(())
  }

  /** `kwargs.pop(key)`: the value and the map without that key, or `KeyError`. */
  function Pop<V>(kw: map<string, V>, key: string): (r: Result<(V, map<string, V>)>)
    ensures r.Ok? <==> key in kw
    ensures r.Err? ==> r.error == KeyError(key)
    ensures r.Ok? ==> r.value.0 == kw[key]
    ensures r.Ok? ==> r.value.1.Keys == kw.Keys - {key}
    ensures r.Ok? ==> forall k :: k in r.value.1 ==> r.value.1[k] == kw[k]
  {
    if key in kw then Ok((kw[key], kw - {key})) else Err(KeyError(key))
  }

  /** How a variant treats its keyword arguments. */
  datatype Protocol =
      /** Takes none: every stateless kernel, TransE, ER-MLP, ER-MLP-E, Tucker, Unstructured Model. */
    | NoExtras
      /** ConvE: requires `t_bias`, rejects anything else. */
    | TailBias
      /** TransR: requires `m_r`, rejects anything else. */
    | RelationMatrix
      /** TransD: requires `h_p`, `r_p`, `t_p`; leftovers are never checked. */
    | ProjectionVectors
      /** ConvKB, Structured Embedding: ignore whatever is passed. */
    | Unchecked

  /** The keywords a protocol needs. */
  function Required(p: Protocol): set<string> {
    match p
    case NoExtras => {}
    case TailBias => {"t_bias"}
    case RelationMatrix => {"m_r"}
    case ProjectionVectors => {"h_p", "r_p", "t_p"}
    case Unchecked => {}
  }

  /** Whether a protocol rejects keywords it does not need. */
  predicate RejectsLeftovers(p: Protocol) {
    p.NoExtras? || p.TailBias? || p.RelationMatrix?
  }

  /** Declarative acceptance: every required keyword is there and, where the
      variant checks, nothing else is. */
  predicate Accepts(p: Protocol, names: set<string>) {
    Required(p) <= names && (RejectsLeftovers(p) ==> names == Required(p))
  }

  /** The keyword handling at the top of each variant's `forward`; on success,
      the consumed extras handed on to the scoring kernel. */
  function Extras<V>(p: Protocol, kw: map<string, V>): (r: Result<map<string, V>>)
    ensures r.Ok? ==> Required(p) <= kw.Keys && r.value.Keys == Required(p)
    ensures r.Ok? && RejectsLeftovers(p) ==> kw.Keys == Required(p)
    ensures p.Unchecked? ==> r.Ok?
    ensures r.Err? ==> r.error.TypeError? || r.error.KeyError? || r.error.ValueError?
  {
    match p
    case NoExtras =>
      var _ :- CheckEmpty(kw);
      Ok(map[])
    case TailBias =>
      if "t_bias" !in kw then Err(TypeError(MissingKeyword("t_bias")))
      else
        (match Pop(kw, "t_bias")
         case Err(e) => Err(e)
         case Ok((tBias, rest)) =>
           var _ :- CheckEmpty(rest);
           Ok(map["t_bias" := tBias]))
    case RelationMatrix =>
      var (mR, rest) :- Pop(kw, "m_r");
      var _ :- CheckEmpty(rest);
      Ok(map["m_r" := mR])
    case ProjectionVectors => PopProjections(kw)
    case Unchecked =>
      Ok(map[])
  }

  /** TransD's three `pop`s, in the order head, relation, tail. */
  function PopProjections<V>(kw: map<string, V>): (r: Result<map<string, V>>)
    ensures r.Ok? ==> Required(ProjectionVectors) <= kw.Keys && r.value.Keys == Required(ProjectionVectors)
    ensures r.Err? ==> r.error.KeyError?
  {
    var (hP, rest1) :- Pop(kw, "h_p");
    var (rP, rest2) :- Pop(rest1, "r_p");
    var (tP, _) :- Pop(rest2, "t_p");
    Ok(map["h_p" := hP, "r_p" := rP, "t_p" := tP])
  }

  /** On success, exactly the required keywords are handed on, with the
      caller's values. */
  ghost predicate HandsOnRequired<V>(p: Protocol, kw: map<string, V>, out: map<string, V>) {
    && out.Keys == Required(p)
    && forall k :: k in Required(p) ==> k in kw && out[k] == kw[k]
  }

  lemma TailBiasMatches<V>(kw: map<string, V>)
    ensures Extras(TailBias, kw).Ok? <==> Accepts(TailBias, kw.Keys)
    ensures Extras(TailBias, kw).Ok? ==> Extras(TailBias, kw).value == map["t_bias" := kw["t_bias"]]
    ensures Extras(TailBias, kw).Ok? ==> HandsOnRequired(TailBias, kw, Extras(TailBias, kw).value)
    ensures "t_bias" !in kw ==> Extras(TailBias, kw) == Err(TypeError(MissingKeyword("t_bias")))
    ensures "t_bias" in kw && kw.Keys != {"t_bias"} ==>
              Extras(TailBias, kw) == Err(ValueError(UnexpectedKwargs(kw.Keys - {"t_bias"})))
  {
    if "t_bias" in kw {
      var rest := kw - {"t_bias"};
      assert Pop(kw, "t_bias") == Ok((kw["t_bias"], rest));
      assert rest.Keys == kw.Keys - {"t_bias"};
      assert rest.Keys == {} <==> kw.Keys == {"t_bias"};
    }
  }

  lemma RelationMatrixMatches<V>(kw: map<string, V>)
    ensures Extras(RelationMatrix, kw).Ok? <==> Accepts(RelationMatrix, kw.Keys)
    ensures Extras(RelationMatrix, kw).Ok? ==> Extras(RelationMatrix, kw).value == map["m_r" := kw["m_r"]]
    ensures Extras(RelationMatrix, kw).Ok? ==> HandsOnRequired(RelationMatrix, kw, Extras(RelationMatrix, kw).value)
    ensures "m_r" !in kw ==> Extras(RelationMatrix, kw) == Err(KeyError("m_r"))
    ensures "m_r" in kw && kw.Keys != {"m_r"} ==>
              Extras(RelationMatrix, kw) == Err(ValueError(UnexpectedKwargs(kw.Keys - {"m_r"})))
  {
    if "m_r" in kw {
      var rest := kw - {"m_r"};
      assert Pop(kw, "m_r") == Ok((kw["m_r"], rest));
      assert rest.Keys == kw.Keys - {"m_r"};
      assert rest.Keys == {} <==> kw.Keys == {"m_r"};
    }
  }

  lemma ProjectionVectorsMatch<V>(kw: map<string, V>)
    ensures Extras(ProjectionVectors, kw).Ok? <==> Accepts(ProjectionVectors, kw.Keys)
    ensures Extras(ProjectionVectors, kw).Ok? ==>
              Extras(ProjectionVectors, kw).value == map["h_p" := kw["h_p"], "r_p" := kw["r_p"], "t_p" := kw["t_p"]]
    ensures Extras(ProjectionVectors, kw).Ok? ==> HandsOnRequired(ProjectionVectors, kw, Extras(ProjectionVectors, kw).value)
    ensures "h_p" !in kw ==> Extras(ProjectionVectors, kw) == Err(KeyError("h_p"))
    ensures "h_p" in kw && "r_p" !in kw ==> Extras(ProjectionVectors, kw) == Err(KeyError("r_p"))
    ensures "h_p" in kw && "r_p" in kw && "t_p" !in kw ==> Extras(ProjectionVectors, kw) == Err(KeyError("t_p"))
  {
    if "h_p" in kw {
      var rest1 := kw - {"h_p"};
      assert "r_p" in rest1 <==> "r_p" in kw;
      if "r_p" in kw {
        var rest2 := rest1 - {"r_p"};
        assert "t_p" in rest2 <==> "t_p" in kw;
        assert "r_p" in kw && "t_p" in kw ==> rest1["r_p"] == kw["r_p"] && rest2["t_p"] == kw["t_p"];
      }
    }
    assert Required(ProjectionVectors) <= kw.Keys <==> "h_p" in kw && "r_p" in kw && "t_p" in kw;
  }

  /** The operational keyword handling agrees with the declarative acceptance
      rule, and on success hands on exactly the required keywords with the
      caller's values. */
  lemma ExtrasMatchAccepts<V>(p: Protocol, kw: map<string, V>)
    ensures Extras(p, kw).Ok? <==> Accepts(p, kw.Keys)
    ensures Extras(p, kw).Ok? ==> HandsOnRequired(p, kw, Extras(p, kw).value)
  {
    match p
    case NoExtras =>
    case TailBias => TailBiasMatches(kw);
    case RelationMatrix => RelationMatrixMatches(kw);
    case ProjectionVectors => ProjectionVectorsMatch(kw);
    case Unchecked =>
  }

  /** Which exception a rejected call raises: a missing `t_bias` is a
      `TypeError`, a missing `m_r`, `h_p`, `r_p` or `t_p` a `KeyError` for the
      first one missing in that order, and leftovers a `ValueError` naming
      them. */
  lemma ExtrasErrors<V>(p: Protocol, kw: map<string, V>)
    ensures p.TailBias? && "t_bias" !in kw ==> Extras(p, kw) == Err(TypeError(MissingKeyword("t_bias")))
    ensures p.RelationMatrix? && "m_r" !in kw ==> Extras(p, kw) == Err(KeyError("m_r"))
    ensures p.ProjectionVectors? && "h_p" !in kw ==> Extras(p, kw) == Err(KeyError("h_p"))
    ensures p.ProjectionVectors? && "h_p" in kw && "r_p" !in kw ==> Extras(p, kw) == Err(KeyError("r_p"))
    ensures p.ProjectionVectors? && "h_p" in kw && "r_p" in kw && "t_p" !in kw ==> Extras(p, kw) == Err(KeyError("t_p"))
    ensures RejectsLeftovers(p) && Required(p) <= kw.Keys && kw.Keys != Required(p) ==>
              Extras(p, kw) == Err(ValueError(UnexpectedKwargs(kw.Keys - Required(p))))
  {
    match p
    case NoExtras => assert kw.Keys - {} == kw.Keys;
    case TailBias => TailBiasMatches(kw);
    case RelationMatrix => RelationMatrixMatches(kw);
    case ProjectionVectors => ProjectionVectorsMatch(kw);
    case Unchecked =>
  }

  lemma AcceptsNothing(p: Protocol)
    ensures Accepts(p, {}) <==> p.NoExtras? || p.Unchecked?
  {
  }

  /** A call without keyword arguments is accepted exactly by the protocols
      that require none; the others reject it with the error for their first
      required keyword. */
  lemma ExtrasOfNothing<V>(p: Protocol)
    ensures var none: map<string, V> := map[];
            && (Extras(p, none).Ok? <==> p.NoExtras? || p.Unchecked?)
            && (p.TailBias? ==> Extras(p, none) == Err(TypeError(MissingKeyword("t_bias"))))
            && (p.RelationMatrix? ==> Extras(p, none) == Err(KeyError("m_r")))
            && (p.ProjectionVectors? ==> Extras(p, none) == Err(KeyError("h_p")))
  {
    match p
    case NoExtras =>
    case TailBias =>
    case RelationMatrix =>
    case ProjectionVectors =>
    case Unchecked =>
  }

  /** TransD accepts keywords it does not use: a call with the three
      projections and one unrelated keyword succeeds. */
  lemma ProjectionVectorsIgnoreLeftovers<V>(v: V)
    ensures Extras(ProjectionVectors, map["h_p" := v, "r_p" := v, "t_p" := v, "unused" := v]).Ok?
  {
    ExtrasMatchAccepts(ProjectionVectors, map["h_p" := v, "r_p" := v, "t_p" := v, "unused" := v]);
  }
}

=== FILE: outcomes.dfy ===
/** Optional values, the exceptions the interaction modules raise, and a
    failure-compatible result type carrying them. Each Python exception kind
    is one constructor of `Error`; its payload says what the message names. */
module Outcomes {

  datatype Option<+T> = None | Some(value: T)

  /** Why a `ValueError` was raised. */
  datatype ValueReason =
      /** The factorization resolver could not complete the geometry; carries the
          caller's original (channels, width, height) and the target dimension. */
    | NoFactorization(original: (Option<nat>, Option<nat>, Option<nat>), target: nat)
      /** Python's `max()` applied to an empty sequence. */
    | EmptyMaxArgument
      /** A variant was handed keyword arguments it does not take. */
    | UnexpectedKwargs(names: set<string>)
      /** `_remove_dim` was asked to remove the same (normalised) axis twice. */
    | DuplicateDims(dims: seq<int>)
      /** Tuple unpacking met the wrong number of values. */
    | UnpackMismatch(expected: nat, got: nat)
      /** ConvE's own re-check that channels * height * width equals the embedding dimension. */
    | ProductMismatch

  /** Why a `TypeError` was raised. */
  datatype TypeReason =
      /** A mandatory keyword argument was not supplied. */
    | MissingKeyword(keyword: string)
      /** A keyword passed both by name and inside `**kwargs` of one call. */
    | DuplicateKeyword(keyword: string)
      /** Arithmetic with `None` as an operand. */
    | NoneOperand

  /** Why torch raised a `RuntimeError`. */
  datatype RuntimeReason =
    | BroadcastMismatch
    | ViewMismatch
    | ZeroSplitSize
    | WidthMismatch
    | KernelTooLarge
      /** A layer was asked to allocate a weight with a negative extent. */
    | NegativeDimension

  datatype Error =
    | ValueError(valueReason: ValueReason)
    | TypeError(typeReason: TypeReason)
    | KeyError(key: string)
    | AssertionError
    | ZeroDivisionError
    | IndexError
    | NameError(name: string)
    | RuntimeError(runtimeReason: RuntimeReason)

  /** Either a value or the exception that was raised instead. */
  datatype Result<+T> = Ok(value: T) | Err(error: Error) {

    predicate IsFailure() {
      Err?
    }

    function PropagateFailure<U>(): Result<U>
      requires Err?
    {
      Err(error)
    }

    function Extract(): T
      requires Ok?
    {
      value
    }
  }
}

=== FILE: scoring.dfy ===
/** The scoring entry points of the interaction base class: they bring
    (batch, dim) inputs into the four-axis layout `forward` expects, call it,
    and squeeze the result back to (batch, 1) or (batch, num_candidates). */
module Scoring {
  import opened Outcomes
  import opened Axes
  import opened Kwargs
  import opened Interactions
  import opened Variants

  /** Positions of the axes in the result of `forward`. */
  const BatchDim: int := 0
  const NumDim: int := 1
  const HeadDim: int := 1
  const RelationDim: int := 2
  const TailDim: int := 3

  /** The keyword arguments of a call that passes none. */
  const NoKeywords: map<string, Shape> := map[]

  /** The named-axis shape assertion at the top of each scoring method: every
      tensor has one axis per letter of its pattern, and axes named by the
      same letter have the same size. */
  predicate CheckShapes(pairs: seq<(Shape, string)>) {
    && (forall i :: 0 <= i < |pairs| ==> |pairs[i].0| == |pairs[i].1|)
    && (forall i, j, a, b ::
          && 0 <= i < |pairs| && 0 <= j < |pairs| && 0 <= a < |pairs[i].1| && 0 <= b < |pairs[j].1|
          && pairs[i].1[a] == pairs[j].1[b]
          ==> pairs[i].0[a] == pairs[j].0[b])
  }

  /** What the assertion of `score_hrt` means for the three shapes. */
  lemma TriplePattern(h: Shape, r: Shape, t: Shape)
    requires CheckShapes([(h, "be"), (r, "br"), (t, "be")])
    ensures |h| == 2 && |r| == 2 && |t| == 2
    ensures h[0] == r[0] == t[0] && h[1] == t[1]
  {
    var pairs := [(h, "be"), (r, "br"), (t, "be")];
    assert |pairs[0].0| == 2 && |pairs[1].0| == 2 && |pairs[2].0| == 2;
    assert pairs[0].1[0] == pairs[1].1[0] == pairs[2].1[0];
    assert pairs[0].1[1] == pairs[2].1[1];
  }

  /** What the assertion of `score_h` and `score_t` means: the candidate
      entities share the feature axis of the fixed entity, and the fixed
      relation and entity share the batch axis. */
  lemma CandidatePattern(all: Shape, r: Shape, e: Shape)
    requires CheckShapes([(all, "ne"), (r, "br"), (e, "be")])
    ensures |all| == 2 && |r| == 2 && |e| == 2
    ensures r[0] == e[0] && all[1] == e[1]
  {
    var pairs := [(all, "ne"), (r, "br"), (e, "be")];
    assert |pairs[0].0| == 2 && |pairs[1].0| == 2 && |pairs[2].0| == 2;
    assert pairs[1].1[0] == pairs[2].1[0];
    assert pairs[0].1[1] == pairs[2].1[1];
  }

  /** What the assertion of `score_r` means. */
  lemma RelationCandidatePattern(all: Shape, h: Shape, t: Shape)
    requires CheckShapes([(all, "nr"), (h, "be"), (t, "be")])
    ensures |all| == 2 && |h| == 2 && |t| == 2
    ensures h == t
  {
    var pairs := [(all, "nr"), (h, "be"), (t, "be")];
    assert |pairs[0].0| == 2 && |pairs[1].0| == 2 && |pairs[2].0| == 2;
    assert pairs[1].1[0] == pairs[2].1[0];
    assert pairs[1].1[1] == pairs[2].1[1];
  }

  /** `_add_dim` applied to two or three tensors of rank 2 at one position. */
  function AddDimToAll(xs: seq<Shape>, dim: int): (r: seq<Shape>)
    requires |xs| > 1 && forall i :: 0 <= i < |xs| ==> |xs[i]| == 2
    requires 0 <= dim <= 2
    ensures |r| == |xs|
    ensures forall i :: 0 <= i < |xs| ==> InsertedAt(xs[i], r[i], dim)
  {
    AddDim(xs, dim).value.shapes
  }

  /** `_add_dim` applied to a single tensor of rank 2. */
  function AddDimToOne(x: Shape, dim: int): (r: Shape)
    requires |x| == 2 && 0 <= dim <= 2
    ensures InsertedAt(x, r, dim)
  {
    AddDim([x], dim).value.shape
  }

  lemma InsertedAtOne(x: Shape, y: Shape)
    requires |x| == 2 && InsertedAt(x, y, 1)
    ensures y == [x[0], 1, x[1]]
  {
  }

  lemma InsertedAtZero(x: Shape, y: Shape)
    requires |x| == 2 && InsertedAt(x, y, 0)
    ensures y == [1, x[0], x[1]]
  {
  }

  /** The final `unsqueeze(dim=-1)` of `score_hrt`. */
  lemma AppendAxis(b: nat)
    ensures Unsqueeze([b], -1) == Ok([b, 1])
  {
    var u := Unsqueeze([b], -1);
    assert u.Ok? && InsertedAt([b], u.value, 1);
    assert u.value == [u.value[0], u.value[1]];
  }

  /** Inserting an axis of size 1 next to the relation's batch axis changes
      neither its element count nor the last axes, so the layout check
      decides alike before and after the preparation. */
  lemma LayoutAfterAddedAxis(v: Interaction, h: Shape, r: Shape, h1: Shape, r1: Shape)
    requires |h| == 2 && |r| == 2 && |h1| == 3 && |r1| == 3
    requires h1[2] == h[1] && r1[2] == r[1]
    requires r1[..2] == [r[0], 1] || r1[..2] == [1, r[0]]
    ensures LayoutFits(v, h1, r1) <==> LayoutFits(v, h, r)
  {
    ProductPair(r[0], 1);
    ProductPair(1, r[0]);
    assert r[..1] == [r[0]];
    LayoutFitsAgree(v, h1, r1, h, r);
  }

  /** The call `self(h=h, r=r, t=t, **kwargs)`: Python refuses a keyword
      given both by name and inside `kwargs` before `forward` runs. */
  function CallForward(v: Interaction, h: Shape, r: Shape, t: Shape, kw: map<string, Shape>): (res: Result<Shape>)
    requires |h| >= 2 && |r| >= 2 && |t| >= 2
    ensures kw.Keys !! ForwardParameters ==> res == Forward(v, h, r, t, kw)
    ensures !(kw.Keys !! ForwardParameters) ==>
              && res.Err? && res.error.TypeError? && res.error.typeReason.DuplicateKeyword?
              && res.error.typeReason.keyword in kw.Keys * ForwardParameters
  {
    if "h" in kw then Err(TypeError(DuplicateKeyword("h")))
    else if "r" in kw then Err(TypeError(DuplicateKeyword("r")))
    else if "t" in kw then Err(TypeError(DuplicateKeyword("t")))
    else Forward(v, h, r, t, kw)
  }

  // ---------------------------------------------------------------------
  // score_hrt

  /** The input preparation of `score_hrt`: an axis of size 1 after the
      batch axis of each of head, relation and tail. */
  function PrepareTriples(h: Shape, r: Shape, t: Shape): (res: (Shape, Shape, Shape))
    requires |h| == 2 && |r| == 2 && |t| == 2
    ensures res == ([h[0], 1, h[1]], [r[0], 1, r[1]], [t[0], 1, t[1]])
  {
    var added := AddDimToAll([h, r, t], NumDim);
    InsertedAtOne(h, added[0]);
    InsertedAtOne(r, added[1]);
    InsertedAtOne(t, added[2]);
    (added[0], added[1], added[2])
  }

  /** `score_hrt` as the documentation describes it: keyword arguments are
      handed on to `forward`. Its parameters `h`, `r` and `t` bind those
      names, so they never reach its `**kwargs`. */
  function ScoreTriplesWith(v: Interaction, h: Shape, r: Shape, t: Shape, kw: map<string, Shape>): (res: Result<Shape>)
    requires CheckShapes([(h, "be"), (r, "br"), (t, "be")])
    requires kw.Keys !! ForwardParameters
    ensures |h| == 2 && |r| == 2 && |t| == 2
    ensures res.Ok? <==> Accepts(ProtocolOf(v), kw.Keys) && LayoutFits(v, h, r)
    ensures res.Ok? ==> res.value == [h[0], 1]
    ensures Extras(ProtocolOf(v), kw).Err? ==> res == Err(Extras(ProtocolOf(v), kw).error)
  {
    TriplePattern(h, r, t);
    var (h1, r1, t1) := PrepareTriples(h, r, t);
    LayoutAfterAddedAxis(v, h, r, h1, r1);
    var scores :- CallForward(v, h1, r1, t1, kw);
    assert scores == [h[0], 1, 1, 1];
    RemoveAllCandidateAxes(scores, [HeadDim, RelationDim, TailDim], h[0]);
    var squeezed := RemoveDim(scores, [HeadDim, RelationDim, TailDim]);
    AppendAxis(h[0]);
    Unsqueeze(squeezed.value, -1)
  }

  /** `score_hrt` as written: `forward` is called without keyword arguments. */
  function ScoreTriples(v: Interaction, h: Shape, r: Shape, t: Shape): (res: Result<Shape>)
    requires CheckShapes([(h, "be"), (r, "br"), (t, "be")])
    ensures |h| == 2
    ensures res.Ok? <==> (ProtocolOf(v).NoExtras? || ProtocolOf(v).Unchecked?) && LayoutFits(v, h, r)
    ensures res.Ok? ==> res.value == [h[0], 1]
    ensures Extras(ProtocolOf(v), NoKeywords).Err? ==> res == Err(Extras(ProtocolOf(v), NoKeywords).error)
  {
    TriplePattern(h, r, t);
    assert NoKeywords.Keys == {} && NoKeywords.Keys !! ForwardParameters;
    AcceptsNothing(ProtocolOf(v));
    ScoreTriplesWith(v, h, r, t, NoKeywords)
  }

  // ---------------------------------------------------------------------
  // score_h, score_r, score_t

  /** The input preparation of `score_h`: relation and tail get an axis after
      the batch axis, the candidate heads become a batch of one. */
  function PrepareHeads(all: Shape, r: Shape, t: Shape): (res: (Shape, Shape, Shape))
    requires |all| == 2 && |r| == 2 && |t| == 2
    ensures res == ([1, all[0], all[1]], [r[0], 1, r[1]], [t[0], 1, t[1]])
  {
    var rt := AddDimToAll([r, t], NumDim);
    InsertedAtOne(r, rt[0]);
    InsertedAtOne(t, rt[1]);
    var h := AddDimToOne(all, BatchDim);
    InsertedAtZero(all, h);
    (h, rt[0], rt[1])
  }

  /** The input preparation of `score_r`. */
  function PrepareRelations(h: Shape, all: Shape, t: Shape): (res: (Shape, Shape, Shape))
    requires |h| == 2 && |all| == 2 && |t| == 2
    ensures res == ([h[0], 1, h[1]], [1, all[0], all[1]], [t[0], 1, t[1]])
  {
    var ht := AddDimToAll([h, t], NumDim);
    InsertedAtOne(h, ht[0]);
    InsertedAtOne(t, ht[1]);
    var r := AddDimToOne(all, BatchDim);
    InsertedAtZero(all, r);
    (ht[0], r, ht[1])
  }

  /** The input preparation of `score_t`. */
  function PrepareTails(h: Shape, r: Shape, all: Shape): (res: (Shape, Shape, Shape))
    requires |h| == 2 && |r| == 2 && |all| == 2
    ensures res == ([h[0], 1, h[1]], [r[0], 1, r[1]], [1, all[0], all[1]])
  {
    var hr := AddDimToAll([h, r], NumDim);
    InsertedAtOne(h, hr[0]);
    InsertedAtOne(r, hr[1]);
    var t := AddDimToOne(all, BatchDim);
    InsertedAtZero(all, t);
    (hr[0], hr[1], t)
  }

  /** `score_h` as written: the call of `forward` names `kwargs`, which is not
      defined in the method, so every call ends in `NameError` once the
      inputs are prepared. */
  function ScoreHeadsAsWritten(v: Interaction, all: Shape, r: Shape, t: Shape): (res: Result<Shape>)
    requires CheckShapes([(all, "ne"), (r, "br"), (t, "be")])
    ensures res == Err(NameError("kwargs"))
  {
    CandidatePattern(all, r, t);
    var _ := PrepareHeads(all, r, t);
    Err(NameError("kwargs"))
  }

  /** `score_r` as written. */
  function ScoreRelationsAsWritten(v: Interaction, h: Shape, all: Shape, t: Shape): (res: Result<Shape>)
    requires CheckShapes([(all, "nr"), (h, "be"), (t, "be")])
    ensures res == Err(NameError("kwargs"))
  {
    RelationCandidatePattern(all, h, t);
    var _ := PrepareRelations(h, all, t);
    Err(NameError("kwargs"))
  }

  /** `score_t` as written. */
  function ScoreTailsAsWritten(v: Interaction, h: Shape, r: Shape, all: Shape): (res: Result<Shape>)
    requires CheckShapes([(all, "ne"), (r, "br"), (h, "be")])
    ensures res == Err(NameError("kwargs"))
  {
    CandidatePattern(all, r, h);
    var _ := PrepareTails(h, r, all);
    Err(NameError("kwargs"))
  }

  /** `score_h` with the keyword arguments it documents passed on to
      `forward`: one score per batch row and candidate head. Its parameters
      `r` and `t` bind those names, but a keyword `h` reaches `kwargs` and
      collides with the `h=h` of the call. */
  function ScoreHeads(v: Interaction, all: Shape, r: Shape, t: Shape, kw: map<string, Shape>): (res: Result<Shape>)
    requires CheckShapes([(all, "ne"), (r, "br"), (t, "be")])
    requires "r" !in kw && "t" !in kw
    ensures |all| == 2 && |r| == 2 && |t| == 2
    ensures "h" in kw ==> res == Err(TypeError(DuplicateKeyword("h")))
    ensures res.Ok? <==> "h" !in kw && Accepts(ProtocolOf(v), kw.Keys) && LayoutFits(v, all, r)
    ensures res.Ok? ==> res.value == [r[0], all[0]]
    ensures "h" !in kw && Extras(ProtocolOf(v), kw).Err? ==> res == Err(Extras(ProtocolOf(v), kw).error)
  {
    CandidatePattern(all, r, t);
    var (h1, r1, t1) := PrepareHeads(all, r, t);
    LayoutAfterAddedAxis(v, all, r, h1, r1);
    var scores :- CallForward(v, h1, r1, t1, kw);
    assert scores == [r[0], all[0], 1, 1];
    RemoveRelationAndTailAxes(scores, [RelationDim, TailDim], r[0], all[0]);
    RemoveDim(scores, [RelationDim, TailDim])
  }

  /** `score_r` with its keyword arguments passed on: one score per batch row
      and candidate relation, or a single column for a variant whose kernel
      never receives the relations. A keyword `r` collides with `r=r`. */
  function ScoreRelations(v: Interaction, h: Shape, all: Shape, t: Shape, kw: map<string, Shape>): (res: Result<Shape>)
    requires CheckShapes([(all, "nr"), (h, "be"), (t, "be")])
    requires "h" !in kw && "t" !in kw
    ensures |all| == 2 && |h| == 2 && |t| == 2
    ensures "r" in kw ==> res == Err(TypeError(DuplicateKeyword("r")))
    ensures res.Ok? <==> "r" !in kw && Accepts(ProtocolOf(v), kw.Keys) && LayoutFits(v, h, all)
    ensures res.Ok? ==> res.value == [h[0], if SeesRelation(v) then all[0] else 1]
    ensures "r" !in kw && Extras(ProtocolOf(v), kw).Err? ==> res == Err(Extras(ProtocolOf(v), kw).error)
  {
    RelationCandidatePattern(all, h, t);
    var (h1, r1, t1) := PrepareRelations(h, all, t);
    LayoutAfterAddedAxis(v, h, all, h1, r1);
    var scores :- CallForward(v, h1, r1, t1, kw);
    var relations := if SeesRelation(v) then all[0] else 1;
    assert scores == [h[0], 1, relations, 1];
    RemoveHeadAndTailAxes(scores, [HeadDim, TailDim], h[0], relations);
    RemoveDim(scores, [HeadDim, TailDim])
  }

  /** `score_t` with its keyword arguments passed on: one score per batch row
      and candidate tail. A keyword `t` collides with `t=t`. */
  function ScoreTails(v: Interaction, h: Shape, r: Shape, all: Shape, kw: map<string, Shape>): (res: Result<Shape>)
    requires CheckShapes([(all, "ne"), (r, "br"), (h, "be")])
    requires "h" !in kw && "r" !in kw
    ensures |all| == 2 && |r| == 2 && |h| == 2
    ensures "t" in kw ==> res == Err(TypeError(DuplicateKeyword("t")))
    ensures res.Ok? <==> "t" !in kw && Accepts(ProtocolOf(v), kw.Keys) && LayoutFits(v, h, r)
    ensures res.Ok? ==> res.value == [h[0], all[0]]
    ensures "t" !in kw && Extras(ProtocolOf(v), kw).Err? ==> res == Err(Extras(ProtocolOf(v), kw).error)
  {
    CandidatePattern(all, r, h);
    var (h1, r1, t1) := PrepareTails(h, r, all);
    LayoutAfterAddedAxis(v, h, r, h1, r1);
    var scores :- CallForward(v, h1, r1, t1, kw);
    assert scores == [h[0], 1, 1, all[0]];
    RemoveHeadAndRelationAxes(scores, [HeadDim, RelationDim], h[0], all[0]);
    RemoveDim(scores, [HeadDim, RelationDim])
  }

  // ---------------------------------------------------------------------
  // The written scoring methods against the documented ones

  /** For every variant that needs no keyword arguments, the written
      `score_h` raises `NameError` on inputs where the version that passes
      keyword arguments on returns one score per batch row and candidate. */
  lemma HeadScoringNeedsKeywords(v: Interaction, all: Shape, r: Shape, t: Shape)
    requires ProtocolOf(v).NoExtras?
    requires CheckShapes([(all, "ne"), (r, "br"), (t, "be")])
    ensures |all| == 2 && |r| == 2
    ensures ScoreHeadsAsWritten(v, all, r, t) == Err(NameError("kwargs"))
    ensures ScoreHeads(v, all, r, t, map[]) == Ok([r[0], all[0]])
  {
    CandidatePattern(all, r, t);
  }

  /** The same for `score_r`. */
  lemma RelationScoringNeedsKeywords(v: Interaction, h: Shape, all: Shape, t: Shape)
    requires ProtocolOf(v).NoExtras?
    requires CheckShapes([(all, "nr"), (h, "be"), (t, "be")])
    ensures |all| == 2 && |h| == 2
    ensures ScoreRelationsAsWritten(v, h, all, t) == Err(NameError("kwargs"))
    ensures ScoreRelations(v, h, all, t, map[]) == Ok([h[0], if SeesRelation(v) then all[0] else 1])
  {
    RelationCandidatePattern(all, h, t);
  }

  /** The same for `score_t`. */
  lemma TailScoringNeedsKeywords(v: Interaction, h: Shape, r: Shape, all: Shape)
    requires ProtocolOf(v).NoExtras?
    requires CheckShapes([(all, "ne"), (r, "br"), (h, "be")])
    ensures |all| == 2 && |h| == 2
    ensures ScoreTailsAsWritten(v, h, r, all) == Err(NameError("kwargs"))
    ensures ScoreTails(v, h, r, all, map[]) == Ok([h[0], all[0]])
  {
    CandidatePattern(all, r, h);
  }

  /** A concrete instance: TransE, five candidate heads of width 4 and a batch
      of three relation/tail pairs. */
  lemma TransEHeadScoringCounterexample()
    ensures ScoreHeadsAsWritten(TransEInteraction(2, false), [5, 4], [3, 4], [3, 4]) == Err(NameError("kwargs"))
    ensures ScoreHeads(TransEInteraction(2, false), [5, 4], [3, 4], [3, 4], map[]) == Ok([3, 5])
  {
    var all: Shape, r: Shape, t: Shape := [5, 4], [3, 4], [3, 4];
    var pairs := [(all, "ne"), (r, "br"), (t, "be")];
    assert CheckShapes(pairs) by {
      forall i, j, a, b |
        && 0 <= i < |pairs| && 0 <= j < |pairs| && 0 <= a < |pairs[i].1| && 0 <= b < |pairs[j].1|
        && pairs[i].1[a] == pairs[j].1[b]
        ensures pairs[i].0[a] == pairs[j].0[b]
      {
        assert "ne"[0] != "ne"[1] && "br"[0] != "br"[1] && "be"[0] != "be"[1];
      }
    }
  }

  /** Unstructured Model scores seven candidate relations of a batch of three
      as a single column, since its kernel never receives them. */
  lemma UnstructuredRelationScoring()
    ensures ScoreRelations(UnstructuredModelInteraction(1, true), [3, 4], [7, 4], [3, 4], map[]) == Ok([3, 1])
    ensures ScoreRelations(TransEInteraction(1, true), [3, 4], [7, 4], [3, 4], map[]) == Ok([3, 7])
  {
    var all: Shape, h: Shape, t: Shape := [7, 4], [3, 4], [3, 4];
    var pairs := [(all, "nr"), (h, "be"), (t, "be")];
    assert CheckShapes(pairs) by {
      forall i, j, a, b |
        && 0 <= i < |pairs| && 0 <= j < |pairs| && 0 <= a < |pairs[i].1| && 0 <= b < |pairs[j].1|
        && pairs[i].1[a] == pairs[j].1[b]
        ensures pairs[i].0[a] == pairs[j].0[b]
      {
        assert "nr"[0] != "nr"[1] && "be"[0] != "be"[1] && "nr"[0] != "be"[0] && "nr"[1] != "be"[1];
      }
    }
  }

  /** A keyword named like the fixed relation collides with it: Python
      rejects the call before `forward` sees it, whatever the variant. */
  lemma DuplicateRelationKeyword(v: Interaction, h: Shape, all: Shape, t: Shape, value: Shape)
    requires CheckShapes([(all, "nr"), (h, "be"), (t, "be")])
    ensures ScoreRelations(v, h, all, t, map["r" := value]) == Err(TypeError(DuplicateKeyword("r")))
  {
  }

  /** The written `score_hrt` cannot hand ConvE its tail bias: with the bias
      passed on, the same triples score to one value per row. */
  lemma TripleScoringNeedsKeywords(c: Variants.ConvE, h: Shape, r: Shape, t: Shape, bias: Shape)
    requires CheckShapes([(h, "be"), (r, "br"), (t, "be")])
    ensures ScoreTriples(ConvEInteraction(c), h, r, t) == Err(TypeError(MissingKeyword("t_bias")))
    ensures ScoreTriplesWith(ConvEInteraction(c), h, r, t, map["t_bias" := bias]) == Ok([h[0], 1])
  {
    var kw := map["t_bias" := bias];
    assert kw.Keys == {"t_bias"};
  }
}

=== FILE: variants.dfy ===
/** Size bookkeeping of the stateful interaction variants: the layer sizes
    each constructor derives from its hyperparameters, and the reshapes their
    `forward` performs. Layers are modelled by their sizes only. */
module Variants {
  import opened Outcomes
  import opened Axes
  import opened Factorization

  /** `nn.Linear(in_features, out_features)`. */
  datatype Linear = Linear(inFeatures: int, outFeatures: int)

  /** `nn.Conv2d` with stride 1 and no padding. */
  datatype Conv2d = Conv2d(inChannels: nat, outChannels: nat, kernelHeight: nat, kernelWidth: nat)

  /** One stage of an `nn.Sequential` over feature vectors. */
  datatype Layer = Dropout | Dense(linear: Linear) | BatchNorm1d(numFeatures: nat) | ReLU

  /** The number of elements of a tensor of shape `s`. */
  function Product(s: Shape): nat {
    if |s| == 0 then 1 else s[0] * Product(s[1..])
  }

  lemma Product3(a: nat, b: nat, c: nat)
    ensures Product([a, b, c]) == a * b * c
  {
    assert [c][1..] == [];
    assert Product([c]) == c;
    assert [b, c][1..] == [c];
    assert Product([b, c]) == b * c;
    assert [a, b, c][1..] == [b, c];
    assert Product([a, b, c]) == a * (b * c);
  }

  lemma ProductPair(a: nat, b: nat)
    ensures Product([a]) == a
    ensures Product([a, b]) == a * b
  {
    assert [a][1..] == [];
    assert [a, b][1..] == [b];
    assert [b][1..] == [];
  }

  /** The element count of a concatenation of axes is the product of the two counts. */
  lemma {:induction false} ProductAppend(a: Shape, b: Shape)
    ensures Product(a + b) == Product(a) * Product(b)
    decreases |a|
  {
    if |a| == 0 {
      assert a + b == b;
    } else {
      assert (a + b)[0] == a[0];
      assert (a + b)[1..] == a[1..] + b;
      ProductAppend(a[1..], b);
      assert a[0] * (Product(a[1..]) * Product(b)) == (a[0] * Product(a[1..])) * Product(b);
    }
  }

  /** The feature width after each stage of a sequential network, or the
      `RuntimeError` torch raises when a stage does not fit its input. */
  function Propagate(layers: seq<Layer>, width: int): (r: Result<int>)
    ensures r.Err? ==> r.error == RuntimeError(WidthMismatch)
    ensures (forall i :: 0 <= i < |layers| ==> layers[i].Dropout? || layers[i].ReLU?) ==> r == Ok(width)
    ensures r.Ok? && (forall i :: 0 <= i < |layers| ==> !layers[i].Dense?) ==> r.value == width
    decreases |layers|
  {
    if |layers| == 0 then Ok(width)
    else
      match layers[0]
      case Dropout => Propagate(layers[1..], width)
      case ReLU => Propagate(layers[1..], width)
      case Dense(l) =>
        if l.inFeatures != width then Err(RuntimeError(WidthMismatch))
        else Propagate(layers[1..], l.outFeatures)
      case BatchNorm1d(n) =>
        if n != width then Err(RuntimeError(WidthMismatch))
        else Propagate(layers[1..], width)
  }

  /** The output of a stride-1, unpadded convolution on a (channels, height, width) image. */
  function ConvOutput(image: Shape, conv: Conv2d): (r: Result<Shape>)
    requires |image| == 3
    ensures r.Ok? <==> image[0] == conv.inChannels && conv.kernelHeight <= image[1] && conv.kernelWidth <= image[2]
    ensures r.Ok? ==> r.value == [conv.outChannels, image[1] - conv.kernelHeight + 1, image[2] - conv.kernelWidth + 1]
  {
    if image[0] != conv.inChannels then Err(RuntimeError(WidthMismatch))
    else if image[1] < conv.kernelHeight || image[2] < conv.kernelWidth then Err(RuntimeError(KernelTooLarge))
    else Ok([conv.outChannels, image[1] - conv.kernelHeight + 1, image[2] - conv.kernelWidth + 1])
  }

  // ---------------------------------------------------------------------
  // ConvE

  datatype ConvE = ConvE(
    embeddingDim: nat,
    inputChannels: nat,
    height: nat,
    width: nat,
    conv1: Conv2d,
    bn0: Option<nat>,
    bn1: Option<nat>,
    bn2: Option<nat>,
    numInFeatures: int,
    fc: Linear)

  const ConvEDefaultOutputChannels: nat := 32
  const ConvEDefaultKernel: nat := 3
  const ConvEDefaultEmbeddingDim: nat := 200

  /** The flattened size of the convolution output, as the constructor
      computes it; negative when exactly one kernel side overshoots. */
  function InFeatures(outputChannels: nat, g: Geometry, kernelHeight: nat, kernelWidth: nat): (n: int)
    ensures kernelHeight <= 2 * g.height + 1 && kernelWidth <= g.width + 1 ==> n >= 0
    ensures n < 0 <==>
              && outputChannels > 0
              && ((kernelHeight > 2 * g.height + 1 && kernelWidth < g.width + 1)
                  || (kernelHeight < 2 * g.height + 1 && kernelWidth > g.width + 1))
  {
    var a := 2 * g.height - kernelHeight + 1;
    var b := g.width - kernelWidth + 1;
    ProductSign(outputChannels, a);
    ProductSign(outputChannels * a, b);
    outputChannels * a * b
  }

  /** The sign of a product from the signs of its factors. */
  lemma ProductSign(a: int, b: int)
    ensures a * b < 0 <==> (a < 0 && b > 0) || (a > 0 && b < 0)
    ensures a * b > 0 <==> (a > 0 && b > 0) || (a < 0 && b < 0)
  {
    if a > 0 && b > 0 {
      MultipleOfDivisor(b, a);
    } else if a > 0 && b < 0 {
      MultipleOfDivisor(b, a);
    } else if a < 0 && b > 0 {
      MultipleOfDivisor(a, b);
    } else if a < 0 && b < 0 {
      MultipleOfDivisor(-a, -b);
    }
  }

  lemma SizeInConvEOrder(g: Geometry)
    ensures g.channels * g.height * g.width == g.Size()
  {
    assert g.height * g.width == g.width * g.height;
  }

  /** The embedding dimension ConvE works with: the one given, or the product
      of the three factors, which is a `TypeError` when any of them is `None`. */
  function ConvEDimension(inputChannels: Option<nat>, embeddingHeight: Option<nat>, embeddingWidth: Option<nat>,
                          embeddingDim: Option<nat>): (r: Result<nat>)
    ensures embeddingDim.Some? ==> r == Ok(embeddingDim.value)
    ensures embeddingDim.None? ==>
              (r.Ok? <==> inputChannels.Some? && embeddingHeight.Some? && embeddingWidth.Some?)
    ensures r.Err? ==> r.error == TypeError(NoneOperand)
    ensures embeddingDim.None? && r.Ok? ==>
              r.value == Geometry(inputChannels.value, embeddingWidth.value, embeddingHeight.value).Size()
  {
    if embeddingDim.Some? then Ok(embeddingDim.value)
    else if inputChannels.None? || embeddingWidth.None? || embeddingHeight.None? then Err(TypeError(NoneOperand))
    else Ok(inputChannels.value * embeddingWidth.value * embeddingHeight.value)
  }

  /** The layers of ConvE once the geometry is settled. */
  function BuildConvE(dim: nat, g: Geometry, outputChannels: nat, kernelHeight: nat, kernelWidth: nat,
                      applyBatchNormalization: bool): (r: Result<ConvE>)
    ensures r.Ok? <==> InFeatures(outputChannels, g, kernelHeight, kernelWidth) >= 0
    ensures r.Err? ==> r.error == RuntimeError(NegativeDimension)
    ensures r.Ok? ==>
              && r.value.embeddingDim == dim
              && Geometry(r.value.inputChannels, r.value.width, r.value.height) == g
              && r.value.conv1 == Conv2d(g.channels, outputChannels, kernelHeight, kernelWidth)
              && (r.value.bn0.None? && r.value.bn1.None? && r.value.bn2.None? <==> !applyBatchNormalization)
              && (applyBatchNormalization ==>
                    && r.value.bn0 == Some(g.channels)
                    && r.value.bn1 == Some(outputChannels)
                    && r.value.bn2 == Some(dim))
              && r.value.numInFeatures >= 0
              && r.value.fc == Linear(r.value.numInFeatures, dim)
  {
    var numInFeatures := InFeatures(outputChannels, g, kernelHeight, kernelWidth);
    if numInFeatures < 0 then Err(RuntimeError(NegativeDimension))
    else Ok(ConvE(
      embeddingDim := dim,
      inputChannels := g.channels,
      height := g.height,
      width := g.width,
      conv1 := Conv2d(g.channels, outputChannels, kernelHeight, kernelWidth),
      bn0 := if applyBatchNormalization then Some(g.channels) else None,
      bn1 := if applyBatchNormalization then Some(outputChannels) else None,
      bn2 := if applyBatchNormalization then Some(dim) else None,
      numInFeatures := numInFeatures,
      fc := Linear(numInFeatures, dim)))
  }

  /** `ConvEInteractionFunction.__init__`: derives the embedding dimension from
      the three factors when it is `None`, resolves the geometry, and sizes
      the convolution, the three optional batch norms and the final linear
      layer. The re-check of the product after resolving never fails. */
  function NewConvE(
    inputChannels: Option<nat>,
    outputChannels: nat,
    embeddingHeight: Option<nat>,
    embeddingWidth: Option<nat>,
    kernelHeight: nat,
    kernelWidth: nat,
    embeddingDim: Option<nat>,
    applyBatchNormalization: bool): (r: Result<ConvE>)
    ensures ConvEDimension(inputChannels, embeddingHeight, embeddingWidth, embeddingDim).Err? ==>
              r == Err(TypeError(NoneOperand))
    ensures ConvEDimension(inputChannels, embeddingHeight, embeddingWidth, embeddingDim).Ok? ==>
              var dim := ConvEDimension(inputChannels, embeddingHeight, embeddingWidth, embeddingDim).value;
              var g := Resolve(dim, Factors(inputChannels, embeddingWidth, embeddingHeight));
              && (g.Err? ==> r == Err(g.error))
              && (g.Ok? ==> r == BuildConvE(dim, g.value, outputChannels, kernelHeight, kernelWidth, applyBatchNormalization))
    ensures r.Ok? ==> r.value.inputChannels * r.value.height * r.value.width == r.value.embeddingDim
    ensures r.Ok? ==> Factors(inputChannels, embeddingWidth, embeddingHeight)
                        .ExtendedBy(Geometry(r.value.inputChannels, r.value.width, r.value.height))
  {
    var dim :- ConvEDimension(inputChannels, embeddingHeight, embeddingWidth, embeddingDim);
    var g :- Resolve(dim, Factors(inputChannels, embeddingWidth, embeddingHeight));
    SizeInConvEOrder(g);
    if g.channels * g.height * g.width != dim then Err(ValueError(ProductMismatch))
    else BuildConvE(dim, g, outputChannels, kernelHeight, kernelWidth, applyBatchNormalization)
  }

  /** The shape pipeline ConvE's kernel runs on one head embedding: reshape to
      (channels, height, width), stack with the relation along the height
      axis, convolve, and flatten. */
  function ConvEFlattenedWidth(c: ConvE): (r: Result<int>)
    ensures r.Ok? <==>
              && c.inputChannels * c.height * c.width == c.embeddingDim
              && c.conv1.inChannels == c.inputChannels
              && c.conv1.kernelHeight <= 2 * c.height && c.conv1.kernelWidth <= c.width
    ensures r.Ok? ==>
              r.value == InFeatures(c.conv1.outChannels, Geometry(c.inputChannels, c.width, c.height),
                                    c.conv1.kernelHeight, c.conv1.kernelWidth)
  {
    if c.inputChannels * c.height * c.width != c.embeddingDim then Err(RuntimeError(ViewMismatch))
    else
      var stacked: Shape := [c.inputChannels, 2 * c.height, c.width];
      var out :- ConvOutput(stacked, c.conv1);
      Product3(out[0], out[1], out[2]);
      Ok(Product(out))
  }

  /** `num_in_features` is exactly the flattened size of the convolution
      output on the stacked image, so the final linear layer fits whenever the
      kernel fits the image; the fitted layer maps back to the embedding
      dimension for the product with the tail. `NewConvE` builds every ConvE
      this way, from a geometry whose size is the embedding dimension. */
  lemma {:induction false} ConvEFeaturesFit(dim: nat, g: Geometry, outputChannels: nat,
                                            kernelHeight: nat, kernelWidth: nat, applyBatchNormalization: bool)
    requires g.Size() == dim
    requires InFeatures(outputChannels, g, kernelHeight, kernelWidth) >= 0
    ensures BuildConvE(dim, g, outputChannels, kernelHeight, kernelWidth, applyBatchNormalization).Ok?
    ensures var c := BuildConvE(dim, g, outputChannels, kernelHeight, kernelWidth, applyBatchNormalization).value;
            && (ConvEFlattenedWidth(c).Ok? <==> kernelHeight <= 2 * g.height && kernelWidth <= g.width)
            && (ConvEFlattenedWidth(c).Ok? ==>
                  ConvEFlattenedWidth(c).value == c.numInFeatures == c.fc.inFeatures
                  && c.fc.outFeatures == c.embeddingDim)
  {
    var c := BuildConvE(dim, g, outputChannels, kernelHeight, kernelWidth, applyBatchNormalization).value;
    SizeInConvEOrder(g);
    if kernelHeight <= 2 * g.height && kernelWidth <= g.width {
      var out: Shape := [outputChannels, 2 * g.height - kernelHeight + 1, g.width - kernelWidth + 1];
      assert ConvOutput([g.channels, 2 * g.height, g.width], c.conv1) == Ok(out);
      Product3(outputChannels, 2 * g.height - kernelHeight + 1, g.width - kernelWidth + 1);
    }
  }

  /** ConvE with its default hyperparameters: one channel, a 10 x 20 image,
      and 32 * 18 * 18 = 10368 features into the final layer. */
  lemma ConvEDefaults()
    ensures var r := NewConvE(None, ConvEDefaultOutputChannels, None, None, ConvEDefaultKernel, ConvEDefaultKernel,
                              Some(ConvEDefaultEmbeddingDim), true);
            && r.Ok?
            && r.value.inputChannels == 1 && r.value.height == 10 && r.value.width == 20
            && r.value.numInFeatures == 10368
  {
    DefaultConvEGeometry();
  }

  // ---------------------------------------------------------------------
  // ConvKB

  datatype ConvKB = ConvKB(embeddingDim: nat, numFilters: nat, conv: Conv2d, linear: Linear)

  /** `ConvKBInteractionFunction.__init__`: one-channel (1, 3) filters and a
      linear layer from `embedding_dim * num_filters` features to one score. */
  function NewConvKB(embeddingDim: nat, numFilters: nat): (c: ConvKB)
    ensures embeddingDim >= 1 ==> ConvOutput([1, embeddingDim, 3], c.conv) == Ok([numFilters, embeddingDim, 1])
  {
    ConvKB(embeddingDim, numFilters, Conv2d(1, numFilters, 1, 3), Linear(embeddingDim * numFilters, 1))
  }

  /** The linear layer's input width is the flattened filter output on the
      (1, embedding_dim, 3) image of stacked head, relation and tail, and its
      output is a single score. */
  lemma ConvKBFeaturesFit(embeddingDim: nat, numFilters: nat)
    requires embeddingDim >= 1
    ensures var c := NewConvKB(embeddingDim, numFilters);
            var out := ConvOutput([1, embeddingDim, 3], c.conv);
            && out == Ok([numFilters, embeddingDim, 1])
            && Product(out.value) == c.linear.inFeatures
            && c.linear.outFeatures == 1
  {
    Product3(numFilters, embeddingDim, 1);
    assert numFilters * embeddingDim * 1 == embeddingDim * numFilters;
  }

  // ---------------------------------------------------------------------
  // ER-MLP and ER-MLP-E

  datatype ERMLP = ERMLP(hidden: Linear, hiddenToScore: Linear)

  /** `ERMLPInteractionFunction.__init__`. */
  function NewERMLP(embeddingDim: nat, hiddenDim: nat): (m: ERMLP)
    ensures Propagate(ERMLPLayers(m), 3 * embeddingDim) == Ok(1)
  {
    var m := ERMLP(Linear(3 * embeddingDim, hiddenDim), Linear(hiddenDim, 1));
    var last := [Dense(m.hiddenToScore)];
    assert last[1..] == [];
    assert ERMLPLayers(m)[1..] == [ReLU] + last;
    assert ([ReLU] + last)[1..] == last;
    assert Propagate(last, hiddenDim) == Ok(1);
    assert Propagate(ERMLPLayers(m)[1..], hiddenDim) == Ok(1);
    m
  }

  function ERMLPLayers(m: ERMLP): seq<Layer> {
    [Dense(m.hidden), ReLU, Dense(m.hiddenToScore)]
  }

  /** The ER-MLP network accepts exactly the concatenation of head, relation
      and tail embeddings and produces one score. */
  lemma ERMLPWidths(embeddingDim: nat, hiddenDim: nat, inputWidth: int)
    ensures var layers := ERMLPLayers(NewERMLP(embeddingDim, hiddenDim));
            && (Propagate(layers, inputWidth).Ok? <==> inputWidth == embeddingDim + embeddingDim + embeddingDim)
            && (Propagate(layers, inputWidth).Ok? ==> Propagate(layers, inputWidth).value == 1)
  {
    var layers := ERMLPLayers(NewERMLP(embeddingDim, hiddenDim));
    var last := [Dense(Linear(hiddenDim, 1))];
    assert last[1..] == [];
    assert Propagate(last, hiddenDim) == Ok(1);
    assert layers[1..] == [ReLU] + last;
    assert ([ReLU] + last)[1..] == last;
    assert Propagate(layers[1..], hiddenDim) == Ok(1);
  }

  datatype ERMLPE = ERMLPE(mlp: seq<Layer>)

  const ERMLPEDefaultHiddenDim: nat := 300
  const ERMLPEDefaultEmbeddingDim: nat := 200

  /** The dropout, batch norm and ReLU that follow each linear layer of
      ER-MLP-E; only the batch norm constrains the width. */
  function NormBlock(width: nat): seq<Layer> {
    [Dropout, BatchNorm1d(width), ReLU]
  }

  /** `ERMLPEInteractionFunction.__init__`: dropout, linear to the hidden
      width, dropout, batch norm, ReLU, linear back to the embedding width,
      dropout, batch norm, ReLU. */
  function NewERMLPE(hiddenDim: nat, embeddingDim: nat): (e: ERMLPE)
    ensures Propagate(e.mlp, 2 * embeddingDim) == Ok(embeddingDim)
  {
    var front := [Dropout, Dense(Linear(2 * embeddingDim, hiddenDim))];
    var hidden := NormBlock(hiddenDim);
    var back := [Dense(Linear(hiddenDim, embeddingDim))];
    var output := NormBlock(embeddingDim);
    assert front[1..] == [Dense(Linear(2 * embeddingDim, hiddenDim))];
    assert Propagate(front, 2 * embeddingDim) == Propagate(front[1..], 2 * embeddingDim);
    DenseWidth(Linear(2 * embeddingDim, hiddenDim), 2 * embeddingDim);
    NormBlockWidth(hiddenDim, hiddenDim);
    DenseWidth(Linear(hiddenDim, embeddingDim), hiddenDim);
    NormBlockWidth(embeddingDim, embeddingDim);
    PropagateAppend(back, output, hiddenDim);
    PropagateAppend(hidden, back + output, hiddenDim);
    PropagateAppend(front, hidden + (back + output), 2 * embeddingDim);
    assert front + hidden + back + output == front + (hidden + (back + output));
    ERMLPE(front + hidden + back + output)
  }

  /** Feeding a width that may already have failed into further stages. */
  function Then(r: Result<int>, rest: seq<Layer>): Result<int> {
    if r.Err? then r else Propagate(rest, r.value)
  }

  /** Running two networks one after the other is running their
      concatenation. */
  lemma {:induction false} PropagateAppend(a: seq<Layer>, b: seq<Layer>, width: int)
    ensures Propagate(a + b, width) == Then(Propagate(a, width), b)
    decreases |a|
  {
    if |a| == 0 {
      assert a + b == b;
    } else {
      assert (a + b)[0] == a[0];
      assert (a + b)[1..] == a[1..] + b;
      match a[0]
      case Dropout => PropagateAppend(a[1..], b, width);
      case ReLU => PropagateAppend(a[1..], b, width);
      case Dense(l) =>
        if l.inFeatures == width {
          PropagateAppend(a[1..], b, l.outFeatures);
        }
      case BatchNorm1d(n) =>
        if n == width {
          PropagateAppend(a[1..], b, width);
        }
    }
  }

  lemma NormBlockWidth(n: nat, width: int)
    ensures Propagate(NormBlock(n), width).Ok? <==> width == n
    ensures Propagate(NormBlock(n), width).Ok? ==> Propagate(NormBlock(n), width).value == n
  {
    var b := NormBlock(n);
    assert b[1..] == [BatchNorm1d(n), ReLU];
    assert b[1..][1..] == [ReLU];
    assert b[1..][1..][1..] == [];
    assert Propagate(b[1..][1..], n) == Ok(n);
    assert Propagate(b, width) == Propagate(b[1..], width);
  }

  lemma DenseWidth(l: Linear, width: int)
    ensures Propagate([Dense(l)], width).Ok? <==> width == l.inFeatures
    ensures Propagate([Dense(l)], width).Ok? ==> Propagate([Dense(l)], width).value == l.outFeatures
  {
    assert [Dense(l)][1..] == [];
  }

  /** The ER-MLP-E network accepts exactly a concatenation of two embeddings
      and yields an embedding-sized vector. */
  lemma ERMLPEWidths(hiddenDim: nat, embeddingDim: nat, inputWidth: int)
    ensures var mlp := NewERMLPE(hiddenDim, embeddingDim).mlp;
            && (Propagate(mlp, inputWidth).Ok? <==> inputWidth == embeddingDim + embeddingDim)
            && (Propagate(mlp, inputWidth).Ok? ==> Propagate(mlp, inputWidth).value == embeddingDim)
  {
    var front := [Dropout, Dense(Linear(2 * embeddingDim, hiddenDim))];
    var hidden := NormBlock(hiddenDim);
    var back := [Dense(Linear(hiddenDim, embeddingDim))];
    var output := NormBlock(embeddingDim);
    assert NewERMLPE(hiddenDim, embeddingDim).mlp == front + (hidden + (back + output));
    assert front[1..] == [Dense(Linear(2 * embeddingDim, hiddenDim))];
    assert Propagate(front, inputWidth) == Propagate(front[1..], inputWidth);
    DenseWidth(Linear(2 * embeddingDim, hiddenDim), inputWidth);
    NormBlockWidth(hiddenDim, hiddenDim);
    DenseWidth(Linear(hiddenDim, embeddingDim), hiddenDim);
    NormBlockWidth(embeddingDim, embeddingDim);
    PropagateAppend(back, output, hiddenDim);
    PropagateAppend(hidden, back + output, hiddenDim);
    PropagateAppend(front, hidden + (back + output), inputWidth);
  }

  /** ER-MLP-E with its default sizes takes a 400-wide concatenation of two
      embeddings, and nothing else, through a 300-wide hidden layer
      back to 200 features. */
  lemma ERMLPEDefaults()
    ensures var mlp := NewERMLPE(ERMLPEDefaultHiddenDim, ERMLPEDefaultEmbeddingDim).mlp;
            && mlp[1] == Dense(Linear(400, 300))
            && (forall w :: Propagate(mlp, w).Ok? <==> w == 400)
            && Propagate(mlp, 400) == Ok(200)
  {
    var mlp := NewERMLPE(ERMLPEDefaultHiddenDim, ERMLPEDefaultEmbeddingDim).mlp;
    forall w
      ensures Propagate(mlp, w).Ok? <==> w == 400
    {
      ERMLPEWidths(ERMLPEDefaultHiddenDim, ERMLPEDefaultEmbeddingDim, w);
    }
  }

  // ---------------------------------------------------------------------
  // Tucker

  datatype Tucker = Tucker(embeddingDim: nat, relationDim: nat, coreTensor: Shape, bn1: Option<nat>, bn2: Option<nat>)

  /** `TuckerInteractionFunction.__init__`: the relation dimension defaults to
      the entity dimension; the core tensor is (entity, relation, entity). */
  function NewTucker(embeddingDim: nat, relationDim: Option<nat>, applyBatchNormalization: bool): (t: Tucker)
    ensures relationDim.Some? ==> t.relationDim == relationDim.value
    ensures relationDim.None? ==> t.relationDim == embeddingDim
    ensures var afterHead := ContractLeading(t.coreTensor, embeddingDim);
            afterHead.Ok? && ContractLeading(afterHead.value, t.relationDim) == Ok([embeddingDim])
  {
    var rd := if relationDim.None? then embeddingDim else relationDim.value;
    Tucker(
      embeddingDim, rd, [embeddingDim, rd, embeddingDim],
      if applyBatchNormalization then Some(embeddingDim) else None,
      if applyBatchNormalization then Some(embeddingDim) else None)
  }

  /** Contracting a vector of width `width` against the leading axis of a tensor. */
  function ContractLeading(t: Shape, width: nat): (r: Result<Shape>)
    ensures r.Ok? <==> |t| > 0 && t[0] == width
  {
    if |t| > 0 && t[0] == width then Ok(t[1..]) else Err(RuntimeError(WidthMismatch))
  }

  /** Contracting the core with head then relation succeeds exactly for an
      entity-sized head and a relation-sized relation, and leaves an
      entity-sized vector for the product with the tail. */
  lemma TuckerContractions(embeddingDim: nat, relationDim: Option<nat>, apply: bool, headWidth: nat, relationWidth: nat)
    ensures var t := NewTucker(embeddingDim, relationDim, apply);
            var afterHead := ContractLeading(t.coreTensor, headWidth);
            && (afterHead.Ok? <==> headWidth == embeddingDim)
            && (afterHead.Ok? ==>
                  && (ContractLeading(afterHead.value, relationWidth).Ok? <==> relationWidth == t.relationDim)
                  && (relationWidth == t.relationDim ==> ContractLeading(afterHead.value, relationWidth).value == [embeddingDim]))
            && (relationDim.None? ==> t.relationDim == embeddingDim)
            && (t.bn1.None? && t.bn2.None? <==> !apply)
  {
    var core := NewTucker(embeddingDim, relationDim, apply).coreTensor;
    assert core[1..][1..] == [embeddingDim];
  }

  // ---------------------------------------------------------------------
  // Structured Embedding

  /** The chunk sizes of `tensor.split(size, dim=-1)` on an axis of `total`
      elements: full chunks and a smaller last one; an empty axis gives one
      empty chunk. */
  function SplitSizes(total: nat, size: nat): (r: seq<nat>)
    requires size > 0
    ensures |r| >= 1
    ensures |r| == 2 <==> size < total <= 2 * size
    ensures |r| == 2 ==> r == [size, total - size]
    decreases total
  {
    if total <= size then [total] else [size] + SplitSizes(total - size, size)
  }

  /** `tensor.split(size, dim=-1)` on an axis of `total` elements: a split
      size of 0 is a `RuntimeError` unless the axis is empty too, in which
      case the one chunk is the empty axis. */
  function SplitChunks(total: nat, size: nat): (r: Result<seq<nat>>)
    ensures r.Err? <==> size == 0 && total > 0
    ensures r.Err? ==> r.error == RuntimeError(ZeroSplitSize)
    ensures r.Ok? ==> |r.value| >= 1
    ensures r.Ok? ==> (|r.value| == 2 <==> size < total <= 2 * size)
    ensures r.Ok? && |r.value| == 2 ==> r.value == [size, total - size]
  {
    if size > 0 then Ok(SplitSizes(total, size))
    else if total == 0 then Ok([0])
    else Err(RuntimeError(ZeroSplitSize))
  }

  /** `tensor.view(*to)` with every size given: it succeeds exactly when the
      element counts agree (a chunk split off the last axis is always
      stride-compatible with splitting that axis further). */
  function ViewShape(from: Shape, to: Shape): (r: Result<Shape>)
    ensures r.Ok? <==> Product(from) == Product(to)
    ensures r.Ok? ==> r.value == to
    ensures r.Err? ==> r.error == RuntimeError(ViewMismatch)
  {
    if Product(from) == Product(to) then Ok(to) else Err(RuntimeError(ViewMismatch))
  }

  /** Whether the relation's last axis splits into two chunks that each view
      as `dim x dim`, `dim` being the head's last axis: exactly `2·dim²`
      values, or, when the leading axes hold no elements at all, any width
      that still splits into two chunks. */
  predicate RelationSplits(h: Shape, r: Shape)
    requires |h| >= 1 && |r| >= 1
  {
    var dim := h[|h| - 1];
    var last := r[|r| - 1];
    && dim >= 1
    && (last == 2 * (dim * dim) || (Product(r[..|r| - 1]) == 0 && dim * dim < last <= 2 * (dim * dim)))
  }

  /** The shape half of `StructuredEmbeddingInteractionFunction.forward`:
      `dim` is the head's last axis; the relation's last axis is split into
      chunks of `dim²`, unpacked into two, and each viewed as `dim x dim`. */
  function SplitRelationShape(h: Shape, r: Shape): (res: Result<(Shape, Shape)>)
    requires |h| >= 1 && |r| >= 1
    ensures res.Ok? <==> RelationSplits(h, r)
    ensures res.Ok? ==> var dim := h[|h| - 1];
                        res.value.0 == res.value.1 == r[..|r| - 1] + [dim, dim]
    ensures h[|h| - 1] == 0 && r[|r| - 1] == 0 ==> res == Err(ValueError(UnpackMismatch(2, 1)))
    ensures h[|h| - 1] == 0 && r[|r| - 1] > 0 ==> res == Err(RuntimeError(ZeroSplitSize))
    ensures Product(r[..|r| - 1]) > 0 && h[|h| - 1] >= 1 && r[|r| - 1] != 2 * (h[|h| - 1] * h[|h| - 1]) ==>
              res.Err? && (res.error.ValueError? || res.error == RuntimeError(ViewMismatch))
  {
    var dim := h[|h| - 1];
    var size := dim * dim;
    var prefix := r[..|r| - 1];
    var chunks :- SplitChunks(r[|r| - 1], size);
    if |chunks| != 2 then Err(ValueError(UnpackMismatch(2, |chunks|)))
    else
      ViewOfChunk(prefix, chunks[0], dim);
      ViewOfChunk(prefix, chunks[1], dim);
      match ViewShape(prefix + [chunks[0]], prefix + [dim, dim])
      case Err(e) => Err(e)
      case Ok(rh) =>
        match ViewShape(prefix + [chunks[1]], prefix + [dim, dim])
        case Err(e) => Err(e)
        case Ok(rt) => Ok((rh, rt))
  }

  /** A chunk of width `c` with leading axes `prefix` views as `dim x dim`
      exactly when it holds `dim²` values per leading index or there are no
      leading indices at all. */
  lemma ViewOfChunk(prefix: Shape, c: nat, dim: nat)
    ensures Product(prefix + [c]) == Product(prefix + [dim, dim]) <==> Product(prefix) == 0 || c == dim * dim
  {
    ProductAppend(prefix, [c]);
    ProductAppend(prefix, [dim, dim]);
    ProductPair(c, c);
    ProductPair(dim, dim);
    ScaleCancels(Product(prefix), c, dim * dim);
  }

  lemma ScaleCancels(p: nat, x: nat, y: nat)
    ensures p * x == p * y <==> p == 0 || x == y
  {
    if p != 0 && p * x == p * y {
      assert p * (x - y) == 0;
    }
  }

  /** A zero-element relation batch: the split of a width-5 axis into chunks
      of 4 gives two chunks, and both views hold no elements. */
  lemma EmptyRelationBatch()
    ensures SplitRelationShape([3, 2], [0, 5]) == Ok(([0, 2, 2], [0, 2, 2]))
  {
    assert [0, 5][..1] == [0];
    assert SplitChunks(5, 4) == Ok([4, 1]);
    ProductPair(0, 4);
    ProductPair(0, 1);
    Product3(0, 2, 2);
    assert [0] + [4] == [0, 4] && [0] + [1] == [0, 1] && [0] + [2, 2] == [0, 2, 2];
  }

  /** A zero-width head on an empty relation axis: the split yields a single
      empty chunk, which does not unpack into two. */
  lemma ZeroWidthEmptyRelation()
    ensures SplitRelationShape([3, 0], [3, 0]) == Err(ValueError(UnpackMismatch(2, 1)))
  {
  }

  /** `view(count, width)` of a flat vector: row `i` is the `i`-th run of
      `width` values. */
  function Rows<T>(v: seq<T>, width: nat, count: nat): (m: seq<seq<T>>)
    requires |v| == width * count
    ensures |m| == count
    ensures forall i :: 0 <= i < count ==> |m[i]| == width
    decreases count
  {
    if count == 0 then []
    else
      assert |v[width..]| == width * (count - 1) by {
        assert width * count == width * (count - 1) + width;
      }
      [v[..width]] + Rows(v[width..], width, count - 1)
  }

  /** The two relation matrices of Structured Embedding from one flattened
      relation vector of `2·dim²` values: the head matrix from the first half,
      the tail matrix from the second. */
  function SplitRelationVector<T>(v: seq<T>, dim: nat): (r: (seq<seq<T>>, seq<seq<T>>))
    requires |v| == 2 * (dim * dim)
    ensures |r.0| == dim && |r.1| == dim
    ensures forall i :: 0 <= i < dim ==> |r.0[i]| == dim && |r.1[i]| == dim
  {
    (Rows(v[..dim * dim], dim, dim), Rows(v[dim * dim..], dim, dim))
  }

  function Flatten<T>(m: seq<seq<T>>): seq<T> {
    if |m| == 0 then [] else m[0] + Flatten(m[1..])
  }

  lemma {:induction false} FlattenRows<T>(v: seq<T>, width: nat, count: nat)
    requires |v| == width * count
    ensures Flatten(Rows(v, width, count)) == v
    decreases count
  {
    if count > 0 {
      assert width * count == width * (count - 1) + width;
      FlattenRows(v[width..], width, count - 1);
      assert v == v[..width] + v[width..];
    }
  }

  lemma RowStart(width: nat, count: nat, i: nat)
    requires i < count
    ensures i * width + width <= width * count
    ensures i > 0 ==> (i - 1) * width + width == i * width
    ensures width * count == width * (count - 1) + width
  {
    assert (i + 1) * width <= count * width;
  }

  lemma {:induction false} RowsEntry<T>(v: seq<T>, width: nat, count: nat, i: nat, j: nat)
    requires |v| == width * count
    requires i < count && j < width
    ensures i * width + j < |v|
    ensures Rows(v, width, count)[i][j] == v[i * width + j]
    decreases count
  {
    RowStart(width, count, i);
    var rest := v[width..];
    assert Rows(v, width, count) == [v[..width]] + Rows(rest, width, count - 1);
    if i > 0 {
      RowsEntry(rest, width, count - 1, i - 1, j);
      var k := (i - 1) * width + j;
      assert rest[k] == v[k + width];
    }
  }

  /** Entry `(i, j)` of the head matrix is element `i·dim + j` of the
      relation vector, and of the tail matrix element `dim² + i·dim + j`. */
  lemma SplitRelationVectorEntry<T>(v: seq<T>, dim: nat, i: nat, j: nat)
    requires |v| == 2 * (dim * dim)
    requires i < dim && j < dim
    ensures i * dim + j < dim * dim
    ensures SplitRelationVector(v, dim).0[i][j] == v[i * dim + j]
    ensures SplitRelationVector(v, dim).1[i][j] == v[dim * dim + i * dim + j]
  {
    var n := dim * dim;
    var front, back := v[..n], v[n..];
    RowsEntry(front, dim, dim, i, j);
    RowsEntry(back, dim, dim, i, j);
    var k := i * dim + j;
    assert front[k] == v[k] && back[k] == v[n + k];
  }

  /** Reading the two matrices back row by row gives the relation vector again. */
  lemma SplitRelationVectorRoundTrip<T>(v: seq<T>, dim: nat)
    requires |v| == 2 * (dim * dim)
    ensures Flatten(SplitRelationVector(v, dim).0) + Flatten(SplitRelationVector(v, dim).1) == v
  {
    var n := dim * dim;
    FlattenRows(v[..n], dim, dim);
    FlattenRows(v[n..], dim, dim);
    assert v[..n] + v[n..] == v;
  }
}
